=== FILE: README.md ===
# Shared posts bot: a verified model

This project models the core of a chat-server bot that keeps shared posts ("shared notes"). A post is an embedded message that a permitted user creates in a channel. The bot stores the post and its metadata, and lets permitted users list, edit and delete posts later.

Two permission schemes decide who may do what:

- **The role gate** (`canManagePosts`). The guild owner and administrators always pass. Anyone else passes when one of their roles is in the guild's configured list of allowed roles.
- **Per-channel grants** (`canUserManagePosts`). Records keyed by (guild, channel, user) carry three flags: create, edit and delete.

The guild owner keeps the allowed-role list and the default channel with `/config`. An owner or administrator sets grant flags with `/config-grant`.

The model is split by source file.

- `Store.Db` is the record store. It is a class whose fields are the three tables and the auto-increment counter of post ids. Its methods are the store operations the commands perform.
- Each command becomes a module with:
  - an `Execute` method (and, for create and edit, the form-submission handler);
  - specification functions that the method is proved against;
  - lemmas that state what the source promises.
- The dispatcher (`InteractionCreate`) routes autocomplete requests, slash commands, button presses and form submissions.
- Platform calls (channel fetches, message sends and deletes, role creation, member updates, the bot's own send permission) become input records. Each field of such a record is the answer the platform gives.
- Clock values are `nat` parameters.
- Strings are sequences of Unicode characters. Where the code compares a length, the model counts it as JavaScript's `length` does, in UTF-16 code units (`Text.Utf16Length`): a character outside the Basic Multilingual Plane counts two.

The properties proved include:

- the exact decision chain of both permission checks;
- monotonicity and idempotence of grants;
- append-if-absent and remove-first-occurrence on the allowed-role list, and that the list stays duplicate-free;
- round trips of the form-id tokens and of the tag list;
- display truncation at 4096 UTF-16 code units, while the stored content stays full;
- that delete removes exactly one post;
- newest-first ordering and limits for listings and autocomplete;
- that the grouped permission listing shows every record exactly once;
- the quirks of the code as written. The edit submission has no owner/admin bypass. The create handler's button is never routed. Autocomplete answers three names no command declares and misses the delete command. The button-opened edit form lacks the fields its handler reads.

## Model

| member | source | states |
|---|---|---|
| Permissions.HasAllowedRole | src/utils/permissions.ts:25-27 | true exactly when some role of the member is in the allowed list |
| Permissions.CanManagePosts | src/utils/permissions.ts:4-28 | owner passes; administrator passes; otherwise false without a config row or with an empty role list, else true iff a member role is allowed |
| Permissions.EmptyRoleListDenies | src/utils/permissions.ts:16-22 | a non-owner non-admin is refused when the guild has no config or no allowed roles |
| Permissions.ConfigIrrelevantForOwnerOrAdmin | src/utils/permissions.ts:6-13 | for the owner or an administrator the answer is the same whatever the config table holds |
| Permissions.CheckPermissions | src/utils/permissions.ts:30-35 | the alias gives the same answer as the role gate |
| ChannelPermissions.CanUserManagePosts | src/utils/channelPermissions.ts:11-18 | without a record for the exact key every action is refused; create/edit/delete return the record's flag; any other action is refused |
| ChannelPermissions.SameKeySameRow | src/database/models/ChannelPermission.ts:8-18 | with the composite primary key, two records with the same key are the same record |
| ChannelPermissions.LookupReadsRecordFlags | src/utils/channelPermissions.ts:12-16 | for a stored record the three actions answer exactly its three flags |
| Models.DefaultPermission | src/database/models/ChannelPermission.ts:20-27 | a record created from its key alone has all three flags false |
| Models.DefaultServerConfig | src/database/models/ServerConfig.ts:15-25 | a new config has no allowed roles and no default channel, and both timestamps at creation time |
| Store.FindPost | src/commands/deletePost.ts:28-33 | the post found has the guild and an id equal to the digits given; none found means no post matches both |
| Store.PostIndex | src/database/models/Post.ts:9-14 | the row position of a primary key, or none when no row has it |
| Store.WithoutPost | src/commands/deletePost.ts:56 | the rows kept are exactly those whose id differs from the destroyed one |
| Store.Where | src/commands/listPosts.ts:39-42 | the rows kept are exactly those of the guild, and of the channel when one is given |
| Store.Take | src/commands/listPosts.ts:44-48 | the limit keeps a prefix of length min(limit, size) |
| Store.SortNewestFirstCorrect | src/commands/listPosts.ts:44-48 | the ordering by creation time descending is sorted and a permutation of its input |
| Store.FindAllNewestCorrect | src/commands/listPosts.ts:44-48 | the query returns in-scope posts only, newest first, up to the limit, and no left-out post in scope is newer than a returned one |
| Store.FindGrantIndex | src/utils/channelPermissions.ts:12 | the first row with the key, or none when no row has it |
| Store.FindGrant | src/commands/config-grant.ts:32 | a found record is stored and has the key; none found means no record has it |
| Store.Db.constructor | src/database/models/Post.ts:9-14 | empty tables and the id counter at 1 |
| Store.Db.FindOrCreateConfig | src/commands/config.ts:123-126 | the stored row of the guild, or a new default row stored for it; nothing else changes |
| Store.Db.SaveConfig | src/database/models/ServerConfig.ts:27-31 | writes the row back under its guild with a fresh update time; nothing else changes |
| Store.Db.CreateGrant | src/commands/config-grant.ts:33-42 | appends the all-false record for an absent key; keys stay unique |
| Store.Db.SaveGrant | src/commands/config-grant.ts:46 | replaces the row with the same key and nothing else |
| Store.Db.CreatePost | src/commands/createPost.ts:161-171 | appends a post with the next id, fresh among all rows, no editor, no attachments, both timestamps now; the counter advances |
| Store.Db.SavePost | src/commands/editPost.ts:162-168 | replaces the row with the same id, refreshing its update time |
| Store.Db.DestroyPost | src/commands/deletePost.ts:56 | the table afterwards is the table without that id; ids stay increasing |
| Store.WithoutPostKeepsIds | src/database/models/Post.ts:9-14 | removing rows keeps the ids increasing and below the counter |
| Store.SameIdSamePost | src/database/models/Post.ts:9-14 | post ids are unique in the table |
| Store.ShownIdSelectsPost | src/commands/listPosts.ts:69 | a post id rendered as text and given back selects exactly that post in its guild |
| ConfigGrant.SetFlag | src/commands/config-grant.ts:43-45 | setting one flag keeps the record's key |
| ConfigGrant.WithGrantKeepsOtherKeys | src/commands/config-grant.ts:32-34 | records with other keys are untouched |
| ConfigGrant.WithGrantRecord | src/commands/config-grant.ts:32-46 | after a grant there is a record for the key: the old one with the flag set, or an all-false one with the flag set |
| ConfigGrant.GrantSetsFlag | src/commands/config-grant.ts:43-46 | after granting an action, the lookup for that action answers true |
| ConfigGrant.GrantKeepsOtherFlags | src/commands/config-grant.ts:43-45 | the other two flags keep their previous values |
| ConfigGrant.GrantIsMonotone | src/commands/config-grant.ts:33-46 | no flag of any record goes from true to false |
| ConfigGrant.GrantIsIdempotent | src/commands/config-grant.ts:32-46 | granting the same action twice gives the same table as granting it once |
| ConfigGrant.GrantKeepsKeysUnique | src/commands/config-grant.ts:32-42 | at most one record per key afterwards |
| ConfigGrant.Execute | src/commands/config-grant.ts:21-47 | a caller neither owner nor administrator is refused and the grants are unchanged; otherwise the grant table becomes the table with the grant applied |
| Config.AddRoleTo | src/commands/config.ts:287-298 | the role is in the result, and the result holds exactly the old roles and the role |
| Config.IndexOf | src/commands/config.ts:350 | -1 exactly when the role is absent, else its first position |
| Config.RemoveFirst | src/commands/config.ts:359 | removal introduces no new role |
| Config.AddRoleKeepsOrder | src/commands/config.ts:287-298 | a present role changes nothing; an absent role is appended after the unchanged old list; no duplicate is introduced |
| Config.AddRoleIdempotent | src/commands/config.ts:287-293 | adding a role twice is adding it once |
| Config.RemoveFirstExactlyOne | src/commands/config.ts:350-360 | an absent role changes nothing; a present role loses exactly its first occurrence, the rest kept in order |
| Config.RemoveFirstOfDistinct | src/commands/config.ts:350-360 | on a duplicate-free list the role is gone afterwards and the list stays duplicate-free |
| Config.RemoveUndoesAdd | src/commands/config.ts:283-367 | removing a role just added gives back the list before the add |
| Config.RoleMention | src/commands/config.ts:380 | a role is shown as a mention starting `<@&` |
| Config.InfoShowsEmptyStates | src/commands/config.ts:388-403 | the "None" text appears exactly when no role is configured, and "Not set" exactly when no default channel is set |
| Config.AddRoleExtendsListing | src/commands/config.ts:369-386 | after adding an absent role the listing is the old listing, a separator and the new mention |
| Config.CreatedRoleName | src/commands/config.ts:164-169 | the created role is named by the option when it is given and nonempty, else by the default name |
| Config.AddedUsers | src/commands/config.ts:206-219 | every reported username belongs to a given user whose membership change succeeded |
| Config.AddedUsersInOrder | src/commands/config.ts:206-219 | the reported usernames are exactly those of the given users whose membership change succeeded, one each, in option order |
| Config.Step | src/commands/config.ts:128-404 | a subcommand writes back only the role list and default channel of the row it was given |
| Config.SetChannelKeepsRoles | src/commands/config.ts:129-139 | setchannel sets the default channel and keeps the role list |
| Config.AddRoleOutcome | src/commands/config.ts:283-343 | addrole of a present role writes nothing; of an absent role it writes the list with the role appended |
| Config.RemoveRoleOutcome | src/commands/config.ts:346-367 | removerole of an absent role writes nothing and says so; of a present role it writes the list without its first occurrence |
| Config.CreateRoleOutcome | src/commands/config.ts:141-233 | createrole is refused without a default channel; on success it appends the new role id |
| Config.ReadOnlySubcommands | src/commands/config.ts:235-281 | assignrole, listroles and info never write the config; assignrole is refused exactly when the role is not allowed |
| Config.StepKeepsRolesDistinct | src/commands/config.ts:283-367 | every subcommand keeps a duplicate-free role list duplicate-free |
| Config.AddedRoleLetsHoldersManage | src/commands/config.ts:295-298 | after addrole every holder of the role passes the role gate |
| Config.RemovedRoleRevokes | src/commands/config.ts:359-360 | after removerole a member whose only allowed role was that one no longer passes the role gate |
| Config.AddUsersToRole | src/commands/config.ts:206-219 | the loop over the three user options reports the usernames the specification function gives |
| Config.RunCreateRole | src/commands/config.ts:141-233 | the createrole branch answers and stores what the subcommand switch prescribes |
| Config.RunAddRole | src/commands/config.ts:283-343 | the addrole branch answers and stores what the subcommand switch prescribes |
| Config.RunRemoveRole | src/commands/config.ts:346-367 | the removerole branch answers and stores what the subcommand switch prescribes |
| Config.RunAssignRole | src/commands/config.ts:235-281 | the assignrole branch answers what the subcommand switch prescribes: refused for a role not configured, failed when the member change fails, else added or removed |
| Config.RunSubcommand | src/commands/config.ts:128-404 | every subcommand branch answers and stores what the subcommand switch prescribes; the other tables are untouched |
| Config.Execute | src/commands/config.ts:109-404 | outside a guild or for a non-owner nothing changes; otherwise the guild's row is found or created, then updated as the subcommand prescribes |
| PostView.FormFields | src/utils/modalUtils.ts:19-33 | the entry form has exactly the fields title, content and tags |
| PostView.CleanTags | src/commands/createPost.ts:106 | trimming and dropping empty pieces never adds a tag |
| PostView.ParseTagsWellFormed | src/commands/createPost.ts:106 | every parsed tag is nonempty, trimmed and comma-free |
| PostView.TagsRoundTrip | src/commands/editPost.ts:62 | well-formed tags joined with `, ` for the edit form parse back to the same list |
| PostView.ParseTagsStable | src/commands/editPost.ts:80 | parsing the joined result of a parse gives the same tags |
| PostView.DisplayDescription | src/commands/createPost.ts:144 | at most 4096 UTF-16 code units; content of at most 4096 code units is shown whole; longer content shows a prefix of at most 4090 code units, one character short of exceeding 4090, followed by `...` |
| Text.FitPrefixCorrect | src/commands/createPost.ts:144 | the cut point keeps at most the given number of UTF-16 code units, and one more character would exceed it |
| PostView.FooterShowsTagsFirst | src/commands/createPost.ts:174-179 | the footer starts with the `Tags: ` list followed by the post number exactly when there are tags, else with the post number `Post #<id>` |
| PostView.PostEmbed | src/commands/createPost.ts:142-156 | the embed shows the display description and has the truncation note exactly when the content was cut |
| CreatePost.CreateToken | src/commands/createPost.ts:93 | the form id is the create prefix followed by the channel id |
| CreatePost.TokenChannel | src/commands/createPost.ts:102 | an id with the create prefix decodes to the text after the prefix up to the next colon |
| CreatePost.CreateTokenRoundTrip | src/commands/createPost.ts:93 | for channel ids without a colon the channel comes back out of its form id |
| CreatePost.MayCreateIsBypassThenGrant | src/commands/createPost.ts:46-60 | owner or administrator may create; anyone else exactly when the create grant says so |
| CreatePost.GrantedUserMayCreate | src/commands/createPost.ts:53-60 | after a create grant for a user and channel, that user may create there |
| CreatePost.CreateForm | src/commands/createPost.ts:92-95 | the entry form carries the channel's token and is empty |
| CreatePost.Execute | src/commands/createPost.ts:33-97 | the bot's send check is decided first, then the user's permission; a form is shown only when both pass |
| CreatePost.CreateButtonId | src/commands/createPost.ts:180-183 | the button added under a new post has an id starting `editpost:` |
| CreatePost.HandleCreatePostModal | src/commands/createPost.ts:100-189 | missing fields, denial or an unusable channel store nothing and show nothing; a send that throws stores nothing and leaves the interaction unanswered; on success the post with the full submitted content (never the cut description), sent message id, author and parsed tags is appended, then footer and button are added |
| CreatePost.TruncationIsAnnounced | src/commands/createPost.ts:144-156 | the shown description never exceeds 4096 UTF-16 code units; content over the limit is shown as something other than itself, and the embed then carries exactly the truncation note |
| EditPost.EditToken | src/commands/editPost.ts:58 | the form id starts with the edit prefix |
| EditPost.DecodeEditToken | src/commands/editPost.ts:71-75 | decodes exactly the ids that are the edit prefix followed by decimal digits |
| EditPost.EditTokenRoundTrip | src/commands/editPost.ts:58-75 | the id of a post comes back out of its form id and selects that post |
| EditPost.EditTokenInjective | src/commands/editPost.ts:58 | distinct posts have distinct form ids |
| EditPost.EditForm | src/commands/editPost.ts:57-65 | the edit form carries the post's token, title, content and joined tags |
| EditPost.EditFormKeepsTags | src/commands/editPost.ts:62 | submitting the pre-filled form unchanged gives back the post's tags |
| EditPost.Execute | src/commands/editPost.ts:28-66 | refused exactly when the role gate fails; otherwise not found or the post's pre-filled form |
| EditPost.EditButtonId | src/commands/editPost.ts:151-156 | the button id is `editpost-btn-` followed by the post id |
| EditPost.Edited | src/commands/editPost.ts:162-168 | title, content, tags, editor, message id and update time change; id, guild, channel, author and creation time are kept |
| EditPost.HandleEditPostModal | src/commands/editPost.ts:69-174 | an undecodable id, missing fields, missing post, missing grant or unusable channel leave the store unchanged; on success the post's row is replaced by the edited post and the new message is shown |
| EditPost.OwnerPassesGateButNotSubmission | src/commands/editPost.ts:97-106 | the guild owner passes the form's role gate for any config table, and for any grant table without an edit grant for the owner on that channel the grant check fails, which the submission handler answers with `Denied` |
| EditPost.GrantAloneDoesNotOpenForm | src/commands/editPost.ts:30-36 | a member who is not owner or administrator and holds no allowed role of the guild's config (or the guild has none) fails the form's role gate, while any grant table giving that member an edit grant on the channel passes the submission's grant check |
| DeletePost.Execute | src/commands/deletePost.ts:15-68 | refused by the role gate or not found: nothing changes; a failing channel fetch ends in failure with the post kept; otherwise the post is removed whatever happens to its message |
| DeletePost.DeleteRemovesOnlyThePost | src/commands/deletePost.ts:56 | the post is gone, every other post is kept, one row fewer |
| DeletePost.UniqueIdsRemoveOne | src/commands/deletePost.ts:56 | with unique ids, removing by a row's id removes exactly that row |
| DeletePost.WithoutAbsentId | src/commands/deletePost.ts:56 | removing an id no row has leaves the table as it is |
| DeletePost.SecondDeleteNotFound | src/commands/deletePost.ts:28-41 | a second delete of the same id finds no post |
| ListPosts.PostField | src/commands/listPosts.ts:68-71 | the field of a post is named `ID: <id>` and shows title and author |
| ListPosts.ListFields | src/commands/listPosts.ts:63-72 | one field per listed post |
| ListPosts.Execute | src/commands/listPosts.ts:26-74 | refused exactly when the role gate fails; otherwise no posts, or one field per queried post in query order |
| ListPosts.ListingCorrect | src/commands/listPosts.ts:39-72 | at most ten fields, each of an in-scope post whose shown id selects it; newest first; no left-out post in scope is newer |
| ListPosts.ListingIgnoresContent | src/commands/listPosts.ts:64-71 | the content preview is computed but never shown: the fields do not depend on the content |
| ListPermissions.Selected | src/commands/listPermissions.ts:14-20 | exactly the records of the guild, and of the channel when one is given |
| ListPermissions.FlagLabel | src/commands/listPermissions.ts:31-35 | the label is `none` exactly when no flag is set |
| ListPermissions.LabelOfFlags | src/commands/listPermissions.ts:31-35 | the eight labels: the set flags in the order create, edit, delete joined by `, ` |
| ListPermissions.LabelDeterminesFlags | src/commands/listPermissions.ts:31-35 | two records with the same label have the same flags |
| ListPermissions.ChannelOrder | src/commands/listPermissions.ts:28-30 | a channel is grouped exactly when some record has it |
| ListPermissions.GroupFields | src/commands/listPermissions.ts:42-45 | one field per grouped channel |
| ListPermissions.Execute | src/commands/listPermissions.ts:13-48 | no gate; nothing selected gives the empty reply, otherwise one field per channel group |
| ListPermissions.BuildFields | src/commands/listPermissions.ts:42-45 | the field loop over the grouping object yields one field per channel group, in channel order |
| ListPermissions.GroupByChannel | src/commands/listPermissions.ts:28-36 | the grouping loop yields the channels in first-appearance order and each channel's lines in record order |
| ListPermissions.ChannelOrderDistinct | src/commands/listPermissions.ts:28-30 | each channel is grouped once |
| ListPermissions.RecordListedUnderItsChannel | src/commands/listPermissions.ts:28-36 | every record shows up under its own channel |
| ListPermissions.EntriesComeFromRecords | src/commands/listPermissions.ts:28-36 | every line under a channel comes from a record of that channel |
| ListPermissions.GroupsHoldEveryRecordOnce | src/commands/listPermissions.ts:28-36 | the groups hold exactly as many lines as there are records |
| ListPermissions.ListingCorrect | src/commands/listPermissions.ts:14-45 | channels distinct, empty exactly when nothing is selected, every record once, a single group when a channel is given |
| InteractionCreate.ChoiceOf | src/events/interactionCreate.ts:19-21 | a choice's value is the post id as text |
| InteractionCreate.ChoicesOf | src/events/interactionCreate.ts:19-21 | one choice per post, in order |
| InteractionCreate.FilterChoices | src/events/interactionCreate.ts:22-25 | a choice is kept exactly when it matches the typed text; never more choices than before |
| InteractionCreate.KeptPosts | src/events/interactionCreate.ts:22-25 | the kept posts are posts of the input whose choices match |
| InteractionCreate.FilterOfChoices | src/events/interactionCreate.ts:19-25 | filtering the mapped choices is mapping the filtered posts |
| InteractionCreate.KeptPostsNewestFirst | src/events/interactionCreate.ts:13-25 | filtering keeps the newest-first order |
| InteractionCreate.EmptyFocusKeepsAll | src/events/interactionCreate.ts:22-25 | with nothing typed every post is kept |
| InteractionCreate.AutocompleteServesEditOnly | src/events/interactionCreate.ts:11 | of the five names the autocomplete branch answers, only `snote-edit` and `sn-edit` are declared commands; the delete command `deletepost` is not among them |
| InteractionCreate.AutocompleteCorrect | src/events/interactionCreate.ts:13-26 | at most 25 choices, of guild posts, newest first, each matching and selecting its post; nothing typed offers all 25 newest |
| InteractionCreate.ButtonPostId | src/events/interactionCreate.ts:55-56 | decodes exactly the ids with the button prefix, to what follows it |
| InteractionCreate.CreateButtonNeverRouted | src/events/interactionCreate.ts:55 | the create handler's button id never has the routed prefix |
| InteractionCreate.RouteModal | src/events/interactionCreate.ts:86-90 | create prefix to the create handler, else edit prefix to the edit handler, else ignored |
| InteractionCreate.FormsRouteHome | src/events/interactionCreate.ts:86-90 | each command's form id is routed back to its own handler |
| InteractionCreate.ButtonResponse | src/events/interactionCreate.ts:58-82 | post not found exactly when no post of the guild has the id; otherwise refused exactly when the role gate fails; otherwise exactly the one-field form with the post's edit-form id and its content |
| InteractionCreate.ButtonFormIsRefused | src/events/interactionCreate.ts:73-74 | the button's form lacks the title and tags fields the edit handler reads |
| InteractionCreate.HandleInteraction | src/events/interactionCreate.ts:8-91 | autocomplete only for the five command names and option `id`; unknown commands get no reply; errors via follow-up iff already replied or deferred; only routed forms touch the store |

## Left out

- Platform I/O: message sends, fetches, edits and deletes, role creation, permission overwrites, member fetches and the bot's own send permission. These are input records whose fields are the platform's answers; the model does not say how the platform computes them.
- Startup and deployment: the gateway client, the database connection, environment loading, the ready handler and command registration. The help text, the command index and the unused type declarations are not part of this model either.
- The command registry is a set of registered names. `InteractionCreate.HandleInteraction` receives, as an input, how the registered command's `execute` ended (threw or not, replied or deferred). Each command's own behaviour is modelled in its module.
- InteractionCreate.HandleInteraction: for a submitted form the contract names the handler that answered. What that handler does to the store is stated by the handler's own contract and is not repeated.
- Date rendering (`toLocaleString`, `toLocaleDateString`). The creation time shown on a new post is the text `CreateIo.createdAtText`. The listing's date is the function parameter `showDate`.
- Embed colours, author avatars, embed timestamps, the ephemeral flag, reply wording and console logging.
- src/commands/createPost.ts:190-202 redeclares `createdAt` in the block that already declares it (line 174), which does not compile, and replies a second time. The create outcome is modelled through line 189.
- The persistence engine's change detection. The role list is replaced by a new array on append (src/commands/config.ts:296-297) but spliced in place on removal (line 359) before `update`. The model takes every save and update as written.
- Concurrent interactions: each handler runs as one sequential transaction on the store.
- Failures of the store itself (a save or destroy that throws) are not modelled. Platform failures inside the handlers' `try` blocks are.
- Store.FindPost: a post id given as text matches a row when it is a nonempty run of decimal digits whose value is the id. The database's own conversion of other texts, such as `" 7"` or `"7.0"`, is not modelled.
- PostView.DisplayDescription: `substring(0, 4090)` cuts at a code unit. When the 4090th code unit is the first half of a surrogate pair, JavaScript keeps that lone half; a Dafny `char` cannot be a lone surrogate, so the model leaves the whole pair out and shows 4089 code units before `...`.
- Store.SortNewestFirst: `ORDER BY createdAt DESC` leaves the order of rows with equal timestamps, and which of them `LIMIT` keeps, to the database. The model resolves ties by table order, so `ListPosts.Execute` and the autocomplete reply fix one admissible order; the properties `Store.FindAllNewestCorrect` states are the ones every admissible order shares.
- InteractionCreate.Keeps: `toLowerCase` is modelled on the ASCII letters only.
- ListPermissions.ChannelOrder: channel groups follow insertion order. JavaScript orders keys that are array indices (canonical integers below 2^32 - 1) first. Platform channel ids are larger than that, so insertion order applies; smaller ids are not modelled.
- Interactions outside a guild are modelled for `/config` and `/config-grant` (the `inGuild` input). Elsewhere a guild is assumed.

=== FILE: channel_permissions.dfy ===
/** Per-channel, per-user, per-action grants. There is no owner or
    administrator bypass here: the answer depends on the grant table only. */
module ChannelPermissions {
  import opened Wrappers
  import opened Models
  import opened Store

  const CreateAction: string := "create"
  const EditAction: string := "edit"
  const DeleteAction: string := "delete"

  predicate IsAction(action: string) {
    action == CreateAction || action == EditAction || action == DeleteAction
  }

  /** `canUserManagePosts(guildId, channelId, userId, action)`: the flag of
      the grant record for the exact triple; false without a record and for
      any other action. */
  function CanUserManagePosts(grants: seq<ChannelPermission>, guildId: GuildId, channelId: ChannelId,
                              userId: UserId, action: string): (allowed: bool)
    ensures FindGrant(grants, GrantKey(guildId, channelId, userId)).None? ==> !allowed
    ensures !IsAction(action) ==> !allowed
    ensures allowed ==> exists p :: p in grants && p.Key() == GrantKey(guildId, channelId, userId)
  {
    match FindGrant(grants, GrantKey(guildId, channelId, userId))
    case None => false
    case Some(perm) =>
      if action == CreateAction then perm.canCreate
      else if action == EditAction then perm.canEdit
      else if action == DeleteAction then perm.canDelete
      else false
  }

  /** Two rows with the same key are the same row in a table with unique
      keys. */
  lemma SameKeySameRow(grants: seq<ChannelPermission>, p: ChannelPermission, q: ChannelPermission)
    requires UniqueKeys(grants) && p in grants && q in grants && p.Key() == q.Key()
    ensures p == q
  {
    var i :| 0 <= i < |grants| && grants[i] == p;
    var j :| 0 <= j < |grants| && grants[j] == q;
  }

  /** With the table's unique keys, the lookup answers with exactly the flags
      of the record stored for the triple. */
  lemma LookupReadsRecordFlags(grants: seq<ChannelPermission>, p: ChannelPermission)
    requires UniqueKeys(grants) && p in grants
    ensures CanUserManagePosts(grants, p.guildId, p.channelId, p.userId, CreateAction) == p.canCreate
    ensures CanUserManagePosts(grants, p.guildId, p.channelId, p.userId, EditAction) == p.canEdit
    ensures CanUserManagePosts(grants, p.guildId, p.channelId, p.userId, DeleteAction) == p.canDelete
  {
    var found := FindGrant(grants, p.Key());
    assert found.Some?;
    SameKeySameRow(grants, found.value, p);
  }
}

=== FILE: config.dfy ===
/** `/config`: the server owner's settings for one guild — the default
    channel and the list of roles allowed to manage posts. The guild's config
    row is created on first use; each subcommand then reads or rewrites it. */
module Config {
  import opened Wrappers
  import opened Text
  import opened Models
  import opened Transport
  import opened Store
  import opened Permissions

  // ------------------------------------------------------- the role list

  /** No role id occurs twice. */
  predicate NoDuplicates(roles: seq<RoleId>) {
    forall i, j :: 0 <= i < j < |roles| ==> roles[i] != roles[j]
  }

  /** `addrole`'s update: a role already present leaves the list alone;
      another one is appended at the end. */
  function AddRoleTo(roles: seq<RoleId>, r: RoleId): (out: seq<RoleId>)
    ensures r in out
    ensures forall x :: x in out <==> x in roles || x == r
  {
    if r in roles then roles else roles + [r]
  }

  /** `allowedRoles.indexOf(r)`: the first position of `r`, or -1. */
  function IndexOf(roles: seq<RoleId>, r: RoleId): (i: int)
    ensures i == -1 <==> r !in roles
    ensures i != -1 ==> 0 <= i < |roles| && roles[i] == r && r !in roles[..i]
  {
    if roles == [] then -1
    else if roles[0] == r then 0
    else
      var k := IndexOf(roles[1..], r);
      if k == -1 then -1
      else
        assert roles[..k + 1] == [roles[0]] + roles[1..][..k];
        k + 1
  }

  /** `allowedRoles.splice(indexOf(r), 1)` after the absent case has been
      turned away: the list without the first occurrence of `r`. */
  function RemoveFirst(roles: seq<RoleId>, r: RoleId): (out: seq<RoleId>)
    ensures forall x :: x in out ==> x in roles
  {
    var i := IndexOf(roles, r);
    if i == -1 then roles else roles[..i] + roles[i + 1..]
  }

  /** Cutting position `i` out of a list takes one `s[i]` out of its multiset. */
  lemma CutMultiset(s: seq<RoleId>, i: nat)
    requires i < |s|
    ensures multiset(s[..i] + s[i + 1..]) == multiset(s) - multiset{s[i]}
  {
    assert s == s[..i] + [s[i]] + s[i + 1..];
    assert multiset(s) == multiset(s[..i]) + multiset{s[i]} + multiset(s[i + 1..]);
  }

  /** Appending an absent role keeps the existing entries and their order and
      introduces no duplicate; a present role changes nothing. */
  lemma AddRoleKeepsOrder(roles: seq<RoleId>, r: RoleId)
    ensures r in roles ==> AddRoleTo(roles, r) == roles
    ensures r !in roles ==> |AddRoleTo(roles, r)| == |roles| + 1 && AddRoleTo(roles, r)[..|roles|] == roles
    ensures NoDuplicates(roles) ==> NoDuplicates(AddRoleTo(roles, r))
  {
  }

  /** Adding twice is adding once. */
  lemma AddRoleIdempotent(roles: seq<RoleId>, r: RoleId)
    ensures AddRoleTo(AddRoleTo(roles, r), r) == AddRoleTo(roles, r)
  {
  }

  /** Removing deletes exactly the first occurrence: one fewer `r` in the
      multiset, and the remaining entries in their order around the removed
      position. */
  lemma RemoveFirstExactlyOne(roles: seq<RoleId>, r: RoleId)
    ensures r !in roles ==> RemoveFirst(roles, r) == roles
    ensures r in roles ==>
              var i := IndexOf(roles, r);
              && |RemoveFirst(roles, r)| == |roles| - 1
              && RemoveFirst(roles, r)[..i] == roles[..i]
              && RemoveFirst(roles, r)[i..] == roles[i + 1..]
    ensures multiset(RemoveFirst(roles, r)) == multiset(roles) - multiset{r}
  {
    var i := IndexOf(roles, r);
    var out := RemoveFirst(roles, r);
    if i != -1 {
      assert out == roles[..i] + roles[i + 1..];
      CutSlices(roles, i);
      CutMultiset(roles, i);
    } else {
      assert out == roles;
      assert multiset(roles)[r] == 0;
      assert multiset(roles) - multiset{r} == multiset(roles);
    }
  }

  /** Cutting position `i` out of a list keeps what is before and after it. */
  lemma CutSlices(s: seq<RoleId>, i: nat)
    requires i < |s|
    ensures var out := s[..i] + s[i + 1..];
            |out| == |s| - 1 && out[..i] == s[..i] && out[i..] == s[i + 1..]
  {
    var out := s[..i] + s[i + 1..];
    assert out[..i] == s[..i];
    assert out[i..] == s[i + 1..];
  }

  /** In a list without duplicates, removal leaves no trace of the role and
      keeps the list duplicate-free. */
  lemma RemoveFirstOfDistinct(roles: seq<RoleId>, r: RoleId)
    requires NoDuplicates(roles)
    ensures r !in RemoveFirst(roles, r)
    ensures NoDuplicates(RemoveFirst(roles, r))
  {
    var i := IndexOf(roles, r);
    if i != -1 {
      var out := roles[..i] + roles[i + 1..];
      forall k | 0 <= k < |out| ensures out[k] == roles[if k < i then k else k + 1] {
      }
      forall k | 0 <= k < |out| ensures out[k] != r {
        var k' := if k < i then k else k + 1;
        assert roles[k'] != roles[i];
      }
      forall a, b | 0 <= a < b < |out| ensures out[a] != out[b] {
        var a' := if a < i then a else a + 1;
        var b' := if b < i then b else b + 1;
        assert roles[a'] != roles[b'];
      }
    }
  }

  /** `removerole` undoes an `addrole` of a role that was absent. */
  lemma {:induction false} RemoveUndoesAdd(roles: seq<RoleId>, r: RoleId)
    requires r !in roles
    ensures RemoveFirst(AddRoleTo(roles, r), r) == roles
  {
    var added := roles + [r];
    assert IndexOf(added, r) == |roles| by {
      assert added[..|roles|] == roles;
    }
  }

  // ------------------------------------------------------------ rendering

  /** A role mention, `<@&id>`. */
  function RoleMention(r: RoleId): (m: string)
    ensures StartsWith(m, "<@&")
  {
    "<@&" + r + ">"
  }

  /** The allowed roles as mentions joined by `, `. */
  function RoleMentions(roles: seq<RoleId>): string {
    Join(seq(|roles|, i requires 0 <= i < |roles| => RoleMention(roles[i])), ", ")
  }

  const NoRolesText: string := "None (only owner and admins)"
  const NotSetText: string := "Not set"

  /** `info`'s role list: the mentions, or the "None" text for an empty list. */
  function InfoRoles(roles: seq<RoleId>): string {
    if |roles| > 0 then RoleMentions(roles) else NoRolesText
  }

  /** `info`'s channel entry: the channel mention, or "Not set". */
  function InfoChannel(cfg: ServerConfig): string {
    if HasDefaultChannel(cfg) then "<#" + cfg.defaultChannelId.value + ">" else NotSetText
  }

  /** The "None" text is shown exactly when no role is configured, and
      "Not set" exactly when no default channel is. */
  lemma InfoShowsEmptyStates(cfg: ServerConfig)
    ensures InfoRoles(cfg.allowedRoles) == NoRolesText <==> cfg.allowedRoles == []
    ensures InfoChannel(cfg) == NotSetText <==> !HasDefaultChannel(cfg)
  {
    var roles := cfg.allowedRoles;
    if roles != [] {
      var ms := seq(|roles|, i requires 0 <= i < |roles| => RoleMention(roles[i]));
      JoinStartsWithFirst(ms, ", ");
      assert InfoRoles(roles)[0] == '<';
    }
    if HasDefaultChannel(cfg) {
      assert InfoChannel(cfg)[0] == '<';
    }
  }

  /** After `addrole` of an absent role, the listing is the old listing
      followed by `, ` and the new mention. */
  lemma AddRoleExtendsListing(roles: seq<RoleId>, r: RoleId)
    requires roles != [] && r !in roles
    ensures RoleMentions(AddRoleTo(roles, r)) == RoleMentions(roles) + ", " + RoleMention(r)
  {
    var ms := seq(|roles|, i requires 0 <= i < |roles| => RoleMention(roles[i]));
    var added := roles + [r];
    assert seq(|added|, i requires 0 <= i < |added| => RoleMention(added[i])) == ms + [RoleMention(r)];
    JoinAppend(ms, RoleMention(r), ", ");
  }

  // --------------------------------------------------------- subcommands

  datatype Subcommand =
    | SetChannel(channelId: ChannelId)
    | CreateRole(name: Option<string>, user1: Option<User>, user2: Option<User>, user3: Option<User>)
    | AssignRole(roleId: RoleId, roleName: string, user: User, action: string)
    | AddRole(roleId: RoleId, roleName: string)
    | RemoveRole(roleId: RoleId, roleName: string)
    | ListRoles
    | Info

  /** The platform's answers for one `/config` call: the id of the role it
      creates (None when creation throws), the default channel fetched, whether
      setting the channel overwrite succeeds, and the users whose member fetch
      and role change succeed. */
  datatype ConfigIo = ConfigIo(
    createdRole: Option<RoleId>,
    channel: ChannelFetch,
    overwriteOk: bool,
    reachable: set<UserId>)

  datatype ConfigReply =
    | OwnerOnly
    | ChannelSet(channelId: ChannelId)
    | NeedDefaultChannel
    | DefaultChannelNotFound
    | RoleCreated(roleName: string, roleId: RoleId, channelId: ChannelId, addedUsers: seq<string>)
    | CreateRoleFailed
    | RoleNotConfigured
    | UserAdded(username: string, roleName: string)
    | UserRemoved(username: string, roleName: string)
    | AssignFailed
    | AlreadyAllowed
    | RoleAdded(roleName: string, grantedIn: Option<ChannelId>)
    | RoleAddedWithoutChannelPermissions(roleName: string)
    | NotInList
    | RoleRemoved(roleName: string)
    | NoRoles
    | AllowedRoles(mentions: string)
    | Configuration(channel: string, roles: string)

  /** The name given to a created role: the option, unless it is absent or
      empty. */
  function CreatedRoleName(name: Option<string>): (n: string)
    ensures n != ""
    ensures name.Some? && name.value != "" ==> n == name.value
  {
    if name.Some? && name.value != "" then name.value else "Shared Posts Manager"
  }

  /** The three optional user options of `createrole`, in order. */
  function UserOptions(sub: Subcommand): seq<Option<User>>
    requires sub.CreateRole?
  {
    [sub.user1, sub.user2, sub.user3]
  }

  /** The usernames the role was given to: the users present among the
      options whose membership change succeeded, in option order. */
  function AddedUsers(users: seq<Option<User>>, reachable: set<UserId>): (names: seq<string>)
    ensures |names| <= |users|
    ensures forall n :: n in names ==>
              exists i :: 0 <= i < |users| && users[i].Some? && users[i].value.id in reachable
                                            && users[i].value.username == n
  {
    if users == [] then []
    else
      var init := users[..|users| - 1];
      var last := users[|users| - 1];
      var names := AddedUsers(init, reachable)
                   + (if last.Some? && last.value.id in reachable then [last.value.username] else []);
      assert forall n :: n in AddedUsers(init, reachable) ==>
               exists i :: 0 <= i < |users| && users[i].Some? && users[i].value.id in reachable
                                             && users[i].value.username == n by {
        forall n | n in AddedUsers(init, reachable)
          ensures exists i :: 0 <= i < |users| && users[i].Some? && users[i].value.id in reachable
                                                && users[i].value.username == n {
          var i :| 0 <= i < |init| && init[i].Some? && init[i].value.id in reachable && init[i].value.username == n;
          assert users[i] == init[i];
        }
      }
      names
  }

  /** A user option whose membership change succeeded. */
  predicate Added(user: Option<User>, reachable: set<UserId>) {
    user.Some? && user.value.id in reachable
  }

  /** How many options name a user whose membership change succeeded. */
  function AddedCount(users: seq<Option<User>>, reachable: set<UserId>): nat {
    if users == [] then 0
    else AddedCount(users[..|users| - 1], reachable) + (if Added(users[|users| - 1], reachable) then 1 else 0)
  }

  /** The reported names are exactly the succeeded users' names in option
      order: there is one per succeeded option, and the option at index `i`
      is reported at the position counting the succeeded options before it. */
  lemma {:induction false} AddedUsersInOrder(users: seq<Option<User>>, reachable: set<UserId>)
    ensures |AddedUsers(users, reachable)| == AddedCount(users, reachable)
    ensures forall i :: 0 <= i < |users| && Added(users[i], reachable) ==>
              && AddedCount(users[..i], reachable) < |AddedUsers(users, reachable)|
              && AddedUsers(users, reachable)[AddedCount(users[..i], reachable)] == users[i].value.username
  {
    if users != [] {
      var init := users[..|users| - 1];
      var last := users[|users| - 1];
      AddedUsersInOrder(init, reachable);
      var names := AddedUsers(users, reachable);
      assert names == AddedUsers(init, reachable)
                      + (if Added(last, reachable) then [last.value.username] else []);
      forall i | 0 <= i < |users| && Added(users[i], reachable)
        ensures && AddedCount(users[..i], reachable) < |names|
                && names[AddedCount(users[..i], reachable)] == users[i].value.username
      {
        if i < |init| {
          assert users[..i] == init[..i];
          assert users[i] == init[i];
        } else {
          assert users[..i] == init;
        }
      }
    }
  }

  /** What one subcommand replies and which config row, if any, it writes
      back; `cfg` is the row found or just created for the guild. */
  datatype Outcome = Outcome(reply: ConfigReply, saved: Option<ServerConfig>)

  /** The subcommand switch. */
  function Step(cfg: ServerConfig, sub: Subcommand, io: ConfigIo): (o: Outcome)
    ensures o.saved.Some? ==> o.saved.value == cfg.(allowedRoles := o.saved.value.allowedRoles,
                                                    defaultChannelId := o.saved.value.defaultChannelId)
    ensures o.reply != OwnerOnly
  {
    match sub
    case SetChannel(c) =>
      Outcome(ChannelSet(c), Some(cfg.(defaultChannelId := Some(c))))
    case CreateRole(name, _, _, _) =>
      if !HasDefaultChannel(cfg) then Outcome(NeedDefaultChannel, None)
      else if io.createdRole.None? then Outcome(CreateRoleFailed, None)
      else
        var roleId := io.createdRole.value;
        (match io.channel
         case FetchFailed => Outcome(CreateRoleFailed, None)
         case Missing => Outcome(DefaultChannelNotFound, None)
         case Found(channelId, textBased, isThread) =>
           if !textBased then Outcome(DefaultChannelNotFound, None)
           else if !isThread && !io.overwriteOk then Outcome(CreateRoleFailed, None)
           else
             Outcome(RoleCreated(CreatedRoleName(name), roleId, channelId, AddedUsers(UserOptions(sub), io.reachable)),
                     Some(cfg.(allowedRoles := cfg.allowedRoles + [roleId]))))
    case AssignRole(roleId, roleName, user, action) =>
      if roleId !in cfg.allowedRoles then Outcome(RoleNotConfigured, None)
      else if user.id !in io.reachable then Outcome(AssignFailed, None)
      else if action == "add" then Outcome(UserAdded(user.username, roleName), None)
      else Outcome(UserRemoved(user.username, roleName), None)
    case AddRole(roleId, roleName) =>
      if roleId in cfg.allowedRoles then Outcome(AlreadyAllowed, None)
      else
        var saved := Some(cfg.(allowedRoles := AddRoleTo(cfg.allowedRoles, roleId)));
        if !HasDefaultChannel(cfg) then Outcome(RoleAdded(roleName, None), saved)
        else (match io.channel
          case FetchFailed => Outcome(RoleAddedWithoutChannelPermissions(roleName), saved)
          case Missing => Outcome(RoleAdded(roleName, None), saved)
          case Found(channelId, _, isThread) =>
            if isThread then Outcome(RoleAdded(roleName, None), saved)
            else if io.overwriteOk then Outcome(RoleAdded(roleName, Some(channelId)), saved)
            else Outcome(RoleAddedWithoutChannelPermissions(roleName), saved))
    case RemoveRole(roleId, roleName) =>
      if IndexOf(cfg.allowedRoles, roleId) == -1 then Outcome(NotInList, None)
      else Outcome(RoleRemoved(roleName), Some(cfg.(allowedRoles := RemoveFirst(cfg.allowedRoles, roleId))))
    case ListRoles =>
      if |cfg.allowedRoles| == 0 then Outcome(NoRoles, None)
      else Outcome(AllowedRoles(RoleMentions(cfg.allowedRoles)), None)
    case Info =>
      Outcome(Configuration(InfoChannel(cfg), InfoRoles(cfg.allowedRoles)), None)
  }

  /** `setchannel` records the channel and leaves the role list alone. */
  lemma SetChannelKeepsRoles(cfg: ServerConfig, c: ChannelId, io: ConfigIo)
    ensures var o := Step(cfg, SetChannel(c), io);
            o.saved.Some? && o.saved.value.defaultChannelId == Some(c)
            && o.saved.value.allowedRoles == cfg.allowedRoles
  {
  }

  /** `addrole` writes nothing for a role already present; otherwise it writes
      the list with the role appended. The channel step afterwards never
      undoes the write. */
  lemma AddRoleOutcome(cfg: ServerConfig, r: RoleId, name: string, io: ConfigIo)
    ensures var o := Step(cfg, AddRole(r, name), io);
            (r in cfg.allowedRoles <==> o.saved.None?)
            && (r in cfg.allowedRoles ==> o.reply == AlreadyAllowed)
            && (r !in cfg.allowedRoles ==> o.saved.value.allowedRoles == cfg.allowedRoles + [r])
  {
  }

  /** `removerole` of an absent role writes nothing and says so; of a present
      role it writes the list without the first occurrence. */
  lemma RemoveRoleOutcome(cfg: ServerConfig, r: RoleId, name: string, io: ConfigIo)
    ensures var o := Step(cfg, RemoveRole(r, name), io);
            (r !in cfg.allowedRoles <==> o.reply == NotInList)
            && (r !in cfg.allowedRoles ==> o.saved.None?)
            && (r in cfg.allowedRoles ==> o.saved == Some(cfg.(allowedRoles := RemoveFirst(cfg.allowedRoles, r))))
  {
  }

  /** `createrole` is refused without a default channel; it writes the config
      exactly when it reports success, and then with the new role appended. */
  lemma CreateRoleOutcome(cfg: ServerConfig, sub: Subcommand, io: ConfigIo)
    requires sub.CreateRole?
    ensures !HasDefaultChannel(cfg) ==> Step(cfg, sub, io) == Outcome(NeedDefaultChannel, None)
    ensures var o := Step(cfg, sub, io);
            (o.saved.Some? <==> o.reply.RoleCreated?)
            && (o.saved.Some? ==> o.saved.value.allowedRoles == cfg.allowedRoles + [o.reply.roleId]
                                  && io.createdRole == Some(o.reply.roleId))
  {
  }

  /** `assignrole`, `listroles` and `info` never write the config, and
      `assignrole` is refused exactly for a role outside the allowed list. */
  lemma ReadOnlySubcommands(cfg: ServerConfig, sub: Subcommand, io: ConfigIo)
    requires sub.AssignRole? || sub.ListRoles? || sub.Info?
    ensures Step(cfg, sub, io).saved.None?
    ensures sub.AssignRole? ==> (Step(cfg, sub, io).reply == RoleNotConfigured <==> sub.roleId !in cfg.allowedRoles)
  {
  }

  /** Every subcommand keeps the role list free of duplicates, provided the
      platform hands `createrole` a role id not already listed. */
  lemma StepKeepsRolesDistinct(cfg: ServerConfig, sub: Subcommand, io: ConfigIo)
    requires NoDuplicates(cfg.allowedRoles)
    requires sub.CreateRole? && io.createdRole.Some? ==> io.createdRole.value !in cfg.allowedRoles
    ensures var o := Step(cfg, sub, io);
            o.saved.Some? ==> NoDuplicates(o.saved.value.allowedRoles)
  {
    var o := Step(cfg, sub, io);
    match sub
    case AddRole(r, _) =>
      AddRoleKeepsOrder(cfg.allowedRoles, r);
      assert o.saved.Some? ==> o.saved.value.allowedRoles == AddRoleTo(cfg.allowedRoles, r);
    case RemoveRole(r, _) =>
      RemoveFirstOfDistinct(cfg.allowedRoles, r);
      assert o.saved.Some? ==> o.saved.value.allowedRoles == RemoveFirst(cfg.allowedRoles, r);
    case CreateRole(_, _, _, _) =>
      if io.createdRole.Some? {
        AddRoleKeepsOrder(cfg.allowedRoles, io.createdRole.value);
        assert o.saved.Some? ==> o.saved.value.allowedRoles == AddRoleTo(cfg.allowedRoles, io.createdRole.value);
      }
    case SetChannel(_) =>
      assert o.saved.Some? ==> o.saved.value.allowedRoles == cfg.allowedRoles;
    case _ =>
  }

  /** After `addrole`, every member holding the role may manage posts. */
  lemma AddedRoleLetsHoldersManage(m: Member, configs: map<GuildId, ServerConfig>, r: RoleId)
    requires m.guildId in configs && r in m.roles
    ensures var cfg := configs[m.guildId];
            CanManagePosts(m, configs[m.guildId := cfg.(allowedRoles := AddRoleTo(cfg.allowedRoles, r))])
  {
    var i :| 0 <= i < |m.roles| && m.roles[i] == r;
  }

  /** After `removerole` on a duplicate-free list, a member (neither owner nor
      administrator) whose only allowed role was `r` may no longer manage
      posts. */
  lemma RemovedRoleRevokes(m: Member, configs: map<GuildId, ServerConfig>, r: RoleId)
    requires !IsServerOwner(m) && !m.isAdmin
    requires m.guildId in configs && NoDuplicates(configs[m.guildId].allowedRoles)
    requires forall i :: 0 <= i < |m.roles| && m.roles[i] in configs[m.guildId].allowedRoles ==> m.roles[i] == r
    ensures var cfg := configs[m.guildId];
            !CanManagePosts(m, configs[m.guildId := cfg.(allowedRoles := RemoveFirst(cfg.allowedRoles, r))])
  {
    RemoveFirstOfDistinct(configs[m.guildId].allowedRoles, r);
  }

  /** The row stored after the call: the written-back row with a fresh
      `updatedAt`, or the found or created row when nothing is written. */
  function Stored(cfg: ServerConfig, o: Outcome, now: nat): ServerConfig {
    match o.saved
    case Some(s) => s.(updatedAt := now)
    case None => cfg
  }

  /** The loop over `user1`..`user3` of `createrole`: each user present whose
      member fetch and role change succeed is pushed onto the added list. */
  method AddUsersToRole(users: seq<Option<User>>, reachable: set<UserId>) returns (addedUsers: seq<string>)
    requires |users| == 3
    ensures addedUsers == AddedUsers(users, reachable)
  {
    addedUsers := [];
    for i := 1 to 4
      invariant addedUsers == AddedUsers(users[..i - 1], reachable)
    {
      var user := users[i - 1];
      if user.Some? && user.value.id in reachable {
        addedUsers := addedUsers + [user.value.username];
      }
      assert users[..i] == users[..i - 1] + [users[i - 1]];
    }
    assert users[..3] == users;
  }

  /** The `createrole` branch, from the default-channel check on. */
  method RunCreateRole(db: Db, config: ServerConfig, sub: Subcommand, io: ConfigIo, now: nat)
    returns (reply: ConfigReply)
    requires sub.CreateRole?
    requires db.Valid() && config.guildId in db.configs && db.configs[config.guildId] == config
    modifies db
    ensures db.Valid()
    ensures db.grants == old(db.grants) && db.posts == old(db.posts) && db.nextPostId == old(db.nextPostId)
    ensures reply == Step(config, sub, io).reply
    ensures db.configs == old(db.configs)[config.guildId := Stored(config, Step(config, sub, io), now)]
  {
    if !HasDefaultChannel(config) {
      return NeedDefaultChannel;
    }
    if io.createdRole.None? {
      return CreateRoleFailed;
    }
    var roleId := io.createdRole.value;
    if io.channel.FetchFailed? {
      return CreateRoleFailed;
    }
    if io.channel.Missing? || !io.channel.textBased {
      return DefaultChannelNotFound;
    }
    if !io.channel.isThread && !io.overwriteOk {
      return CreateRoleFailed;
    }
    var allowedRoles := config.allowedRoles;
    var updatedRoles := allowedRoles + [roleId];
    db.SaveConfig(config.(allowedRoles := updatedRoles), now);
    var addedUsers := AddUsersToRole(UserOptions(sub), io.reachable);
    reply := RoleCreated(CreatedRoleName(sub.name), roleId, io.channel.id, addedUsers);
  }

  /** The `addrole` branch: the membership check, the append and save, then
      the channel overwrite on the default channel when one is set. */
  method RunAddRole(db: Db, config: ServerConfig, sub: Subcommand, io: ConfigIo, now: nat)
    returns (reply: ConfigReply)
    requires sub.AddRole?
    requires db.Valid() && config.guildId in db.configs && db.configs[config.guildId] == config
    modifies db
    ensures db.Valid()
    ensures db.grants == old(db.grants) && db.posts == old(db.posts) && db.nextPostId == old(db.nextPostId)
    ensures reply == Step(config, sub, io).reply
    ensures db.configs == old(db.configs)[config.guildId := Stored(config, Step(config, sub, io), now)]
  {
    var roleId, roleName := sub.roleId, sub.roleName;
    var allowedRoles := config.allowedRoles;
    if roleId in allowedRoles {
      return AlreadyAllowed;
    }
    var updatedRoles := allowedRoles + [roleId];
    db.SaveConfig(config.(allowedRoles := updatedRoles), now);
    if HasDefaultChannel(config) {
      match io.channel {
        case FetchFailed =>
          reply := RoleAddedWithoutChannelPermissions(roleName);
        case Missing =>
          reply := RoleAdded(roleName, None);
        case Found(channelId, _, isThread) =>
          if !isThread {
            if io.overwriteOk {
              reply := RoleAdded(roleName, Some(channelId));
            } else {
              reply := RoleAddedWithoutChannelPermissions(roleName);
            }
          } else {
            reply := RoleAdded(roleName, None);
          }
      }
    } else {
      reply := RoleAdded(roleName, None);
    }
  }

  /** The `removerole` branch: `indexOf`, then `splice` and save. */
  method RunRemoveRole(db: Db, config: ServerConfig, sub: Subcommand, io: ConfigIo, now: nat)
    returns (reply: ConfigReply)
    requires sub.RemoveRole?
    requires db.Valid() && config.guildId in db.configs && db.configs[config.guildId] == config
    modifies db
    ensures db.Valid()
    ensures db.grants == old(db.grants) && db.posts == old(db.posts) && db.nextPostId == old(db.nextPostId)
    ensures reply == Step(config, sub, io).reply
    ensures db.configs == old(db.configs)[config.guildId := Stored(config, Step(config, sub, io), now)]
  {
    var allowedRoles := config.allowedRoles;
    var index := IndexOf(allowedRoles, sub.roleId);
    if index == -1 {
      return NotInList;
    }
    allowedRoles := allowedRoles[..index] + allowedRoles[index + 1..];
    db.SaveConfig(config.(allowedRoles := allowedRoles), now);
    reply := RoleRemoved(sub.roleName);
  }

  /** `execute`: the owner gate, then find-or-create of the guild's row, then
      the subcommand, writing the row back where the subcommand changes it. */
  method Execute(db: Db, member: Member, inGuild: bool, sub: Subcommand, io: ConfigIo, now: nat)
    returns (reply: ConfigReply)
    requires db.Valid()
    modifies db
    ensures db.Valid()
    ensures db.grants == old(db.grants) && db.posts == old(db.posts) && db.nextPostId == old(db.nextPostId)
    ensures !(inGuild && IsServerOwner(member)) ==> reply == OwnerOnly && db.configs == old(db.configs)
    ensures inGuild && IsServerOwner(member) ==>
              var g := member.guildId;
              var cfg := if g in old(db.configs) then old(db.configs)[g] else DefaultServerConfig(g, now);
              var o := Step(cfg, sub, io);
              reply == o.reply && db.configs == old(db.configs)[g := Stored(cfg, o, now)]
  {
    if !inGuild || member.guildOwnerId != member.id {
      return OwnerOnly;
    }
    var guildId := member.guildId;
    var config := db.FindOrCreateConfig(guildId, now);
    reply := RunSubcommand(db, config, sub, io, now);
  }

  /** The subcommand switch of `execute`, on the guild's row. */
  method RunSubcommand(db: Db, config: ServerConfig, sub: Subcommand, io: ConfigIo, now: nat)
    returns (reply: ConfigReply)
    requires db.Valid() && config.guildId in db.configs && db.configs[config.guildId] == config
    modifies db
    ensures db.Valid()
    ensures db.grants == old(db.grants) && db.posts == old(db.posts) && db.nextPostId == old(db.nextPostId)
    ensures reply == Step(config, sub, io).reply
    ensures db.configs == old(db.configs)[config.guildId := Stored(config, Step(config, sub, io), now)]
  {
    match sub {
      case SetChannel(c) =>
        db.SaveConfig(config.(defaultChannelId := Some(c)), now);
        reply := ChannelSet(c);
      case CreateRole(_, _, _, _) =>
        reply := RunCreateRole(db, config, sub, io, now);
      case AssignRole(_, _, _, _) =>
        reply := RunAssignRole(config, sub, io);
        assert db.configs == old(db.configs)[config.guildId := config];
      case AddRole(_, _) =>
        reply := RunAddRole(db, config, sub, io, now);
      case RemoveRole(_, _) =>
        reply := RunRemoveRole(db, config, sub, io, now);
      case ListRoles =>
        if |config.allowedRoles| == 0 {
          reply := NoRoles;
        } else {
          reply := AllowedRoles(RoleMentions(config.allowedRoles));
        }
        assert db.configs == old(db.configs)[config.guildId := config];
      case Info =>
        reply := Configuration(InfoChannel(config), InfoRoles(config.allowedRoles));
        assert db.configs == old(db.configs)[config.guildId := config];
    }
  }

  /** The `assignrole` branch: the configured-role check, then the member's
      role change; nothing is written. */
  method RunAssignRole(config: ServerConfig, sub: Subcommand, io: ConfigIo) returns (reply: ConfigReply)
    requires sub.AssignRole?
    ensures reply == Step(config, sub, io).reply
  {
    var allowedRoles := config.allowedRoles;
    if sub.roleId !in allowedRoles {
      return RoleNotConfigured;
    }
    if sub.user.id !in io.reachable {
      return AssignFailed;
    }
    if sub.action == "add" {
      reply := UserAdded(sub.user.username, sub.roleName);
    } else {
      reply := UserRemoved(sub.user.username, sub.roleName);
    }
  }
}

=== FILE: config_grant.dfy ===
/** `/config-grant`: the owner or an administrator grants a user one action
    in one channel. The grant record is found or created with every flag
    false, then the chosen flag is set; no path clears a flag. */
module ConfigGrant {
  import opened Wrappers
  import opened Models
  import opened Store
  import opened Permissions
  import opened ChannelPermissions

  /** The flag assignments of the command: the chosen action's flag becomes
      true and the others keep their values. */
  function SetFlag(p: ChannelPermission, action: string): (q: ChannelPermission)
    ensures q.Key() == p.Key()
  {
    if action == CreateAction then p.(canCreate := true)
    else if action == EditAction then p.(canEdit := true)
    else if action == DeleteAction then p.(canDelete := true)
    else p
  }

  /** The grant table after granting `action` for `key`: the record for the
      key, created with all flags false when missing, with the flag set. */
  function WithGrant(grants: seq<ChannelPermission>, key: GrantKey, action: string): seq<ChannelPermission> {
    match FindGrantIndex(grants, key)
    case Some(i) => grants[i := SetFlag(grants[i], action)]
    case None => grants + [SetFlag(DefaultPermission(key), action)]
  }

  /** The first-match characterisation determines the lookup. */
  lemma FindGrantIndexIs(grants: seq<ChannelPermission>, key: GrantKey, r: Option<nat>)
    requires r.Some? ==> r.value < |grants| && grants[r.value].Key() == key
    requires r.Some? ==> forall i :: 0 <= i < r.value ==> grants[i].Key() != key
    requires r.None? ==> forall i :: 0 <= i < |grants| ==> grants[i].Key() != key
    ensures FindGrantIndex(grants, key) == r
  {
  }

  /** Looking another key up after the grant finds what it found before. */
  lemma {:induction false} WithGrantKeepsOtherKeys(grants: seq<ChannelPermission>, key: GrantKey, action: string, other: GrantKey)
    requires other != key
    ensures FindGrant(WithGrant(grants, key, action), other) == FindGrant(grants, other)
  {
    var after := WithGrant(grants, key, action);
    var before := FindGrantIndex(grants, other);
    match FindGrantIndex(grants, key)
    case Some(i) =>
      assert forall j :: 0 <= j < |grants| ==> (after[j].Key() == other <==> grants[j].Key() == other);
      FindGrantIndexIs(after, other, before);
    case None =>
      assert after[|grants|].Key() == key;
      FindGrantIndexIs(after, other, before);
  }

  /** After the grant the record for the key is found at its old place, or
      appended at the end, and holds the flag set on the old or default
      record. */
  lemma WithGrantRecord(grants: seq<ChannelPermission>, key: GrantKey, action: string)
    ensures var old_ := FindGrant(grants, key);
            FindGrant(WithGrant(grants, key, action), key)
              == Some(SetFlag(old_.GetOr(DefaultPermission(key)), action))
  {
    var after := WithGrant(grants, key, action);
    match FindGrantIndex(grants, key)
    case Some(i) =>
      FindGrantIndexIs(after, key, Some(i));
    case None =>
      FindGrantIndexIs(after, key, Some(|grants|));
  }

  /** After granting an action, the lookup for that triple and action says yes. */
  lemma GrantSetsFlag(grants: seq<ChannelPermission>, key: GrantKey, action: string)
    requires IsAction(action)
    ensures CanUserManagePosts(WithGrant(grants, key, action), key.guildId, key.channelId, key.userId, action)
  {
    WithGrantRecord(grants, key, action);
  }

  /** Granting one action leaves the answer for the other actions on the same
      triple as it was (false when the record did not exist). */
  lemma GrantKeepsOtherFlags(grants: seq<ChannelPermission>, key: GrantKey, action: string, other: string)
    requires other != action
    ensures CanUserManagePosts(WithGrant(grants, key, action), key.guildId, key.channelId, key.userId, other)
         == CanUserManagePosts(grants, key.guildId, key.channelId, key.userId, other)
  {
    WithGrantRecord(grants, key, action);
  }

  /** Flags only move from false to true: every permission held before the
      grant is held after it, for every triple and action. */
  lemma GrantIsMonotone(grants: seq<ChannelPermission>, key: GrantKey, action: string,
                        guildId: GuildId, channelId: ChannelId, userId: UserId, other: string)
    requires CanUserManagePosts(grants, guildId, channelId, userId, other)
    ensures CanUserManagePosts(WithGrant(grants, key, action), guildId, channelId, userId, other)
  {
    var k := GrantKey(guildId, channelId, userId);
    if k == key {
      WithGrantRecord(grants, key, action);
    } else {
      WithGrantKeepsOtherKeys(grants, key, action, k);
    }
  }

  /** Granting the same action twice gives the same table as granting it once. */
  lemma GrantIsIdempotent(grants: seq<ChannelPermission>, key: GrantKey, action: string)
    ensures WithGrant(WithGrant(grants, key, action), key, action) == WithGrant(grants, key, action)
  {
    var once := WithGrant(grants, key, action);
    match FindGrantIndex(grants, key)
    case Some(i) =>
      FindGrantIndexIs(once, key, Some(i));
    case None =>
      FindGrantIndexIs(once, key, Some(|grants|));
  }

  /** The grant keeps one record per triple and leaves a record for the key. */
  lemma GrantKeepsKeysUnique(grants: seq<ChannelPermission>, key: GrantKey, action: string)
    requires UniqueKeys(grants)
    ensures UniqueKeys(WithGrant(grants, key, action))
    ensures FindGrant(WithGrant(grants, key, action), key).Some?
  {
    WithGrantRecord(grants, key, action);
  }

  /** Who may grant: an administrator or the guild owner, in a guild. */
  predicate MayGrant(member: Member, inGuild: bool) {
    inGuild && (member.isAdmin || member.guildOwnerId == member.id)
  }

  datatype GrantReply =
    | OnlyOwnerOrAdmin
    | Granted(action: string, userId: UserId, channelId: ChannelId)

  /** `execute`: rejects anyone but an administrator or the owner; otherwise
      finds or creates the record for (guild, channel, user), sets the flag of
      the chosen action and saves it. */
  method Execute(db: Db, member: Member, inGuild: bool, userId: UserId, channelId: ChannelId, action: string)
    returns (reply: GrantReply)
    requires db.Valid()
    modifies db
    ensures db.Valid()
    ensures !MayGrant(member, inGuild) ==> reply == OnlyOwnerOrAdmin && db.grants == old(db.grants)
    ensures MayGrant(member, inGuild) ==>
              && reply == Granted(action, userId, channelId)
              && db.grants == WithGrant(old(db.grants), GrantKey(member.guildId, channelId, userId), action)
    ensures db.configs == old(db.configs) && db.posts == old(db.posts) && db.nextPostId == old(db.nextPostId)
  {
    if !(inGuild && member.isAdmin) && !(inGuild && member.guildOwnerId == member.id) {
      reply := OnlyOwnerOrAdmin;
      return;
    }
    var key := GrantKey(member.guildId, channelId, userId);
    ghost var before := db.grants;
    var perm: ChannelPermission;
    var found := FindGrant(db.grants, key);
    if found.None? {
      perm := db.CreateGrant(key);
      FindGrantIndexIs(db.grants, key, Some(|before|));
    } else {
      perm := found.value;
    }
    if action == CreateAction { perm := perm.(canCreate := true); }
    if action == EditAction { perm := perm.(canEdit := true); }
    if action == DeleteAction { perm := perm.(canDelete := true); }
    db.SaveGrant(perm);
    reply := Granted(action, userId, channelId);
  }
}

=== FILE: create_post.dfy ===
/** `/snote-create` (and `/sn-create`): checks that the bot can post and the
    user may create in the chosen channel, then shows the entry form whose id
    carries the channel; on submission re-checks the permission, posts the
    embed, stores the post with its full content, then adds footer and button
    to the message. */
module CreatePost {
  import opened Wrappers
  import opened Text
  import opened Models
  import opened Store
  import opened Permissions
  import opened ChannelPermissions
  import opened ConfigGrant
  import opened PostView

  // ---------------------------------------------------------------- token

  const CreateModalPrefix: string := "createpost-modal:"

  /** The form id that carries the target channel. */
  function CreateToken(channelId: ChannelId): (t: string)
    ensures StartsWith(t, CreateModalPrefix)
    ensures t[|CreateModalPrefix|..] == channelId
  {
    StartsWithConcat(CreateModalPrefix, channelId);
    CreateModalPrefix + channelId
  }

  /** An id with the create prefix splits into the prefix's name and the
      pieces of the rest. */
  lemma SplitCreateToken(customId: string)
    requires StartsWith(customId, CreateModalPrefix)
    ensures Split(customId, ':') == ["createpost-modal"] + Split(customId[|CreateModalPrefix|..], ':')
  {
    var rest := customId[|CreateModalPrefix|..];
    assert customId == "createpost-modal" + [':'] + rest;
    SplitAtFirstSeparator("createpost-modal", ':', rest);
  }

  /** `const [_, channelId] = customId.split(':')`: the second `:`-separated
      field, absent when there is no `:`. Every id with the create prefix
      decodes, to the text after the prefix up to the next `:`. */
  function TokenChannel(customId: string): (channel: Option<ChannelId>)
    ensures StartsWith(customId, CreateModalPrefix) ==>
              channel == Some(Split(customId[|CreateModalPrefix|..], ':')[0])
  {
    var parts := Split(customId, ':');
    if StartsWith(customId, CreateModalPrefix) then
      SplitCreateToken(customId);
      Some(parts[1])
    else if |parts| >= 2 then Some(parts[1])
    else None
  }

  /** The channel id comes back out of the form id for every id without `:`
      (platform channel ids are decimal digits). */
  lemma CreateTokenRoundTrip(channelId: ChannelId)
    requires ':' !in channelId
    ensures TokenChannel(CreateToken(channelId)) == Some(channelId)
  {
    SplitWithoutSeparator(channelId, ':');
  }

  // ----------------------------------------------------------- permission

  /** The bypass in front of the grant lookup: a known member who owns the
      guild or is an administrator. */
  predicate OwnerOrAdmin(member: Option<Member>) {
    member.Some? && (IsServerOwner(member.value) || member.value.isAdmin)
  }

  /** `hasPerm` of both create paths. */
  function MayCreate(member: Option<Member>, grants: seq<ChannelPermission>, guildId: GuildId,
                     channelId: ChannelId, userId: UserId): bool
  {
    OwnerOrAdmin(member) || CanUserManagePosts(grants, guildId, channelId, userId, CreateAction)
  }

  /** The owner or an administrator may create whatever the grants say;
      anyone else exactly when the `create` grant for the channel says so. */
  lemma MayCreateIsBypassThenGrant(member: Option<Member>, grants: seq<ChannelPermission>,
                                   guildId: GuildId, channelId: ChannelId, userId: UserId)
    ensures OwnerOrAdmin(member) ==> MayCreate(member, grants, guildId, channelId, userId)
    ensures !OwnerOrAdmin(member) ==>
              (MayCreate(member, grants, guildId, channelId, userId) <==>
                 CanUserManagePosts(grants, guildId, channelId, userId, CreateAction))
    ensures !OwnerOrAdmin(member) && grants == [] ==> !MayCreate(member, grants, guildId, channelId, userId)
  {
  }

  /** After `/config-grant ... create` for a user and channel, that user may
      create there. */
  lemma GrantedUserMayCreate(member: Option<Member>, grants: seq<ChannelPermission>, key: GrantKey)
    ensures MayCreate(member, WithGrant(grants, key, CreateAction), key.guildId, key.channelId, key.userId)
  {
    GrantSetsFlag(grants, key, CreateAction);
  }

  /** Whether the bot may post: asked of the platform for text (0) and
      announcement (5) channels, assumed for every other channel type. */
  predicate BotCanSend(channelType: nat, botHasSend: bool) {
    if channelType == 0 || channelType == 5 then botHasSend else true
  }

  // -------------------------------------------------------------- command

  /** The channel option: its id and platform channel type. */
  datatype SelectedChannel = SelectedChannel(id: ChannelId, channelType: nat)

  datatype CommandReply = BotCannotSend | NoPermission | ShowForm(form: Form)

  /** The empty entry form for a channel. */
  function CreateForm(channelId: ChannelId): (f: Form)
    ensures f.customId == CreateToken(channelId)
    ensures f.title == "" && f.content == "" && f.tags == ""
  {
    Form(CreateToken(channelId), "Create Shared Note", "", "", "")
  }

  /** `execute`: `hasPerm` is set by the bypass, else by the grant; the bot's
      own send permission is decided first, then the user's; then the form. */
  method Execute(db: Db, member: Option<Member>, userId: UserId, guildId: GuildId,
                 channel: SelectedChannel, botHasSend: bool) returns (reply: CommandReply)
    ensures reply == BotCannotSend <==> !BotCanSend(channel.channelType, botHasSend)
    ensures reply == NoPermission <==>
              BotCanSend(channel.channelType, botHasSend) && !MayCreate(member, db.grants, guildId, channel.id, userId)
    ensures reply.ShowForm? ==> reply.form == CreateForm(channel.id)
  {
    var hasPerm := false;
    var isOwner := false;
    var isAdmin := false;
    if member.Some? {
      isOwner := member.value.guildOwnerId == member.value.id;
      isAdmin := member.value.isAdmin;
      if isOwner || isAdmin {
        hasPerm := true;
      }
    }
    if !hasPerm {
      hasPerm := CanUserManagePosts(db.grants, guildId, channel.id, userId, CreateAction);
    }
    var botCanSend := false;
    if channel.channelType == 0 || channel.channelType == 5 {
      botCanSend := botHasSend;
    } else {
      botCanSend := true;
    }
    if !botCanSend {
      return BotCannotSend;
    }
    if !hasPerm {
      return NoPermission;
    }
    reply := ShowForm(CreateForm(channel.id));
  }

  // ----------------------------------------------------------- submission

  /** The platform's answers during a submission: whether the cached channel
      can be sent to, the id of the sent message (None when sending throws),
      whether adding footer and button to it succeeds, and the creation time
      as the footer shows it. */
  datatype CreateIo = CreateIo(sendable: bool, sent: Option<MessageId>, editOk: bool, createdAtText: string)

  /** How a submission ends. `FieldMissing` and `Unanswered` send nothing to
      the user: a missing field makes `getTextInputValue` throw, and a send
      or edit that throws leaves the handler; in both cases the exception
      reaches the client's logger and the interaction gets no answer. Every
      other constructor is an ephemeral reply. */
  datatype SubmitReply = FieldMissing | Denied | NotTextChannel | Unanswered | Created(postId: nat, channelId: ChannelId)

  /** What the channel shows for the post: the embed and, once added, the
      button's id. */
  datatype PostMessage = PostMessage(embed: Embed, buttonId: Option<string>)

  /** The id given to the button added under a new post. */
  function CreateButtonId(userId: UserId, title: string, postId: nat): (b: string)
    ensures StartsWith(b, "editpost:")
  {
    StartsWithConcat("editpost:", userId + ":" + title + ":" + NatToString(postId));
    "editpost:" + userId + ":" + title + ":" + NatToString(postId)
  }

  /** `handleCreatePostModal`, through the first success reply: decode, read
      the fields, re-check permission, find the channel, send, store, then
      add footer and button. */
  method HandleCreatePostModal(db: Db, customId: string, fields: map<string, string>, member: Option<Member>,
                               user: User, guildId: GuildId, io: CreateIo, now: nat)
    returns (reply: SubmitReply, shown: Option<PostMessage>)
    requires db.Valid() && StartsWith(customId, CreateModalPrefix)
    modifies db
    ensures db.Valid()
    ensures db.configs == old(db.configs) && db.grants == old(db.grants)
    ensures var channelId := TokenChannel(customId).value;
            var ok := HasFields(fields) && MayCreate(member, old(db.grants), guildId, channelId, user.id)
                      && io.sendable && io.sent.Some?;
            && (!HasFields(fields) ==> reply == FieldMissing)
            && (HasFields(fields) && !MayCreate(member, old(db.grants), guildId, channelId, user.id) ==> reply == Denied)
            && ((HasFields(fields) && MayCreate(member, old(db.grants), guildId, channelId, user.id) && !io.sendable)
                  ==> reply == NotTextChannel)
            && ((HasFields(fields) && MayCreate(member, old(db.grants), guildId, channelId, user.id) && io.sendable
                 && io.sent.None?) ==> reply == Unanswered)
            && (!ok ==> shown.None? && db.posts == old(db.posts) && db.nextPostId == old(db.nextPostId))
            && (ok ==>
                  var title, content := fields[TitleField], fields[ContentField];
                  var tags := ParseTags(fields[TagsField]);
                  var id := old(db.nextPostId);
                  && db.posts == old(db.posts) + [Post(id, guildId, channelId, io.sent.value, title, content,
                                                       user.id, user.username, None, [], tags, now, now)]
                  && db.nextPostId == id + 1
                  && reply == (if io.editOk then Created(id, channelId) else Unanswered)
                  && shown == Some(if io.editOk
                                   then PostMessage(PostEmbed(title, content, user.username,
                                                              Footer(id, tags, Some(io.createdAtText))),
                                                    Some(CreateButtonId(user.id, title, id)))
                                   else PostMessage(PostEmbed(title, content, user.username, ""), None)))
  {
    var channelId := TokenChannel(customId).value;
    if TitleField !in fields || ContentField !in fields || TagsField !in fields {
      return FieldMissing, None;
    }
    var title := fields[TitleField];
    var content := fields[ContentField];
    var tagsString := fields[TagsField];
    var tags := ParseTags(tagsString);

    var hasPerm := false;
    if member.Some? {
      var isOwner := member.value.guildOwnerId == member.value.id;
      var isAdmin := member.value.isAdmin;
      if isOwner || isAdmin {
        hasPerm := true;
      }
    }
    if !hasPerm {
      hasPerm := CanUserManagePosts(db.grants, guildId, channelId, user.id, CreateAction);
    }
    if !hasPerm {
      return Denied, None;
    }

    if !io.sendable {
      return NotTextChannel, None;
    }
    var embed := PostEmbed(title, content, user.username, "");
    if io.sent.None? {
      return Unanswered, None;
    }
    var messageId := io.sent.value;
    var post := db.CreatePost(guildId, channelId, messageId, title, content, user.id, user.username, tags, now);
    if !io.editOk {
      return Unanswered, Some(PostMessage(embed, None));
    }
    var footerText := Footer(post.id, tags, Some(io.createdAtText));
    embed := embed.(footer := footerText);
    var editButton := CreateButtonId(user.id, title, post.id);
    shown := Some(PostMessage(embed, Some(editButton)));
    reply := Created(post.id, channelId);
  }

  /** The shown description is never longer than the limit, and content
      over the limit is shown cut and announced by the truncation note. (The
      stored row keeps the full content: `HandleCreatePostModal` stores the
      submitted text, not the description.) */
  lemma TruncationIsAnnounced(title: string, content: string, authorName: string, footer: string)
    ensures Utf16Length(PostEmbed(title, content, authorName, footer).description) <= DisplayLimit
    ensures IsTruncated(content) ==>
              PostEmbed(title, content, authorName, footer).description != content
              && PostEmbed(title, content, authorName, footer).fields == [TruncationNote]
  {
  }
}

=== FILE: delete_post.dfy ===
/** `/deletepost`: the role gate, a lookup by id within the guild, a
    best-effort delete of the post's message, then removal of the record.
    Its `id` option is typed, not autocompleted. */
module DeletePost {
  import opened Wrappers
  import opened Models
  import opened Transport
  import opened Store
  import opened Permissions

  datatype DeleteReply = NoPermission | NotFound | Deleted | DeleteFailed

  /** The platform's answers: the post's channel, and whether fetching and
      deleting its message succeeds. */
  datatype DeleteIo = DeleteIo(channel: ChannelFetch, messageDeleted: bool)

  /** Whether the message step removes the message: only in a text-based
      channel, and only when the fetch and delete succeed. A failure here
      never stops the removal of the record. */
  predicate MessageRemoved(io: DeleteIo) {
    io.channel.Found? && io.channel.textBased && io.messageDeleted
  }

  /** `execute`: the role gate, the lookup, the message step, then
      `post.destroy()`; a channel fetch that throws ends in the failure reply
      with the record kept. */
  method Execute(db: Db, member: Member, idText: string, guildId: GuildId, io: DeleteIo)
    returns (reply: DeleteReply, messageRemoved: bool)
    requires db.Valid()
    modifies db
    ensures db.Valid()
    ensures db.configs == old(db.configs) && db.grants == old(db.grants) && db.nextPostId == old(db.nextPostId)
    ensures !CanManagePosts(member, old(db.configs)) ==> reply == NoPermission
    ensures reply != Deleted ==> db.posts == old(db.posts) && !messageRemoved
    ensures CanManagePosts(member, old(db.configs)) ==>
              (match FindPost(old(db.posts), idText, guildId)
               case None => reply == NotFound
               case Some(post) =>
                 if io.channel.FetchFailed? then reply == DeleteFailed
                 else reply == Deleted && db.posts == WithoutPost(old(db.posts), post.id)
                      && messageRemoved == MessageRemoved(io))
  {
    messageRemoved := false;
    if !CanManagePosts(member, db.configs) {
      return NoPermission, false;
    }
    var found := FindPost(db.posts, idText, guildId);
    if found.None? {
      return NotFound, false;
    }
    var post := found.value;
    if io.channel.FetchFailed? {
      return DeleteFailed, false;
    }
    if io.channel.Found? && io.channel.textBased {
      if io.messageDeleted {
        messageRemoved := true;
      }
    }
    db.DestroyPost(post.id);
    reply := Deleted;
  }

  /** After a delete the post is gone, every other post is still there, and
      no row was added. */
  lemma DeleteRemovesOnlyThePost(posts: seq<Post>, nextPostId: nat, post: Post)
    requires PostIdsValid(posts, nextPostId) && post in posts
    ensures post !in WithoutPost(posts, post.id)
    ensures forall q :: q in posts && q != post ==> q in WithoutPost(posts, post.id)
    ensures |WithoutPost(posts, post.id)| == |posts| - 1
  {
    UniqueIdsRemoveOne(posts, nextPostId, post);
  }

  /** With ids unique, removing by the id of a row removes exactly one row. */
  lemma {:induction false} UniqueIdsRemoveOne(posts: seq<Post>, nextPostId: nat, post: Post)
    requires PostIdsValid(posts, nextPostId) && post in posts
    ensures |WithoutPost(posts, post.id)| == |posts| - 1
    ensures forall q :: q in posts && q != post ==> q.id != post.id
  {
    forall q | q in posts && q != post ensures q.id != post.id {
      var i :| 0 <= i < |posts| && posts[i] == q;
      var j :| 0 <= j < |posts| && posts[j] == post;
      assert i != j;
    }
    if posts[0] == post {
      TailIdsValid(posts, nextPostId);
      forall q | q in posts[1..] ensures q.id != post.id {
        HeadIdIsSmallest(posts, nextPostId, q);
      }
      WithoutAbsentId(posts[1..], post.id);
      assert WithoutPost(posts, post.id) == WithoutPost(posts[1..], post.id);
    } else {
      assert post in posts[1..];
      TailIdsValid(posts, nextPostId);
      UniqueIdsRemoveOne(posts[1..], nextPostId, post);
      assert WithoutPost(posts, post.id) == [posts[0]] + WithoutPost(posts[1..], post.id);
    }
  }

  /** Removing an id no row has leaves the table as it is. */
  lemma {:induction false} WithoutAbsentId(posts: seq<Post>, id: nat)
    requires forall q :: q in posts ==> q.id != id
    ensures WithoutPost(posts, id) == posts
  {
    if posts != [] {
      assert forall q :: q in posts[1..] ==> q in posts;
      WithoutAbsentId(posts[1..], id);
      assert posts == [posts[0]] + posts[1..];
    }
  }

  /** A second delete of the same id finds nothing. */
  lemma SecondDeleteNotFound(posts: seq<Post>, idText: string, guildId: GuildId)
    requires FindPost(posts, idText, guildId).Some?
    ensures FindPost(WithoutPost(posts, FindPost(posts, idText, guildId).value.id), idText, guildId).None?
  {
  }
}

=== FILE: edit_post.dfy ===
/** `/snote-edit` (and `/sn-edit`): the role gate and a lookup show the entry
    form pre-filled with the post; its id carries the post id. On submission
    the post is re-found, the user's `edit` grant for the post's channel is
    checked, the old message is deleted where possible, a new message is sent
    and the post's fields are rewritten. */
module EditPost {
  import opened Wrappers
  import opened Text
  import opened Models
  import opened Transport
  import opened Store
  import opened Permissions
  import opened ChannelPermissions
  import opened PostView

  // ---------------------------------------------------------------- token

  const EditModalPrefix: string := "editpost-modal-"

  /** The form id that carries the post id. */
  function EditToken(id: nat): (t: string)
    ensures StartsWith(t, EditModalPrefix)
  {
    StartsWithConcat(EditModalPrefix, NatToString(id));
    EditModalPrefix + NatToString(id)
  }

  /** `customId.match(/^editpost-modal-(\d+)$/)`: the captured digits, or
      None when the id is anything else. */
  function DecodeEditToken(customId: string): (idText: Option<string>)
    ensures idText.Some? <==> StartsWith(customId, EditModalPrefix) && IsDigits(customId[|EditModalPrefix|..])
    ensures idText.Some? ==> customId == EditModalPrefix + idText.value
  {
    if StartsWith(customId, EditModalPrefix) && IsDigits(customId[|EditModalPrefix|..]) then
      assert customId == customId[..|EditModalPrefix|] + customId[|EditModalPrefix|..];
      Some(customId[|EditModalPrefix|..])
    else None
  }

  /** The post id comes back out of the form id and selects the same post. */
  lemma EditTokenRoundTrip(id: nat)
    ensures DecodeEditToken(EditToken(id)) == Some(NatToString(id))
    ensures IdMatches(DecodeEditToken(EditToken(id)).value, id)
  {
    StartsWithConcat(EditModalPrefix, NatToString(id));
    DigitsValueOfNatToString(id);
  }

  /** Distinct posts have distinct form ids. */
  lemma EditTokenInjective(a: nat, b: nat)
    requires EditToken(a) == EditToken(b)
    ensures a == b
  {
    EditTokenRoundTrip(a);
    EditTokenRoundTrip(b);
    NatToStringInjective(a, b);
  }

  // -------------------------------------------------------------- command

  datatype CommandReply = NoPermission | NotFound | ShowForm(form: Form)

  /** The edit form of a post: pre-filled with its title, content and tags
      joined by `, `. */
  function EditForm(post: Post): (f: Form)
    ensures f.customId == EditToken(post.id)
    ensures f.title == post.title && f.content == post.content && f.tags == JoinTags(post.tags)
  {
    Form(EditToken(post.id), "Edit Shared Post", post.title, post.content, JoinTags(post.tags))
  }

  /** Submitting the pre-filled form unchanged gives back the post's tags. */
  lemma EditFormKeepsTags(post: Post)
    requires forall t :: t in post.tags ==> WellFormedTag(t)
    ensures ParseTags(EditForm(post).tags) == post.tags
  {
    TagsRoundTrip(post.tags);
  }

  /** `execute`: the role gate, then the post of this guild with the given id,
      then its pre-filled form. */
  method Execute(db: Db, member: Member, idText: string, guildId: GuildId) returns (reply: CommandReply)
    ensures !CanManagePosts(member, db.configs) <==> reply == NoPermission
    ensures CanManagePosts(member, db.configs) ==>
              (match FindPost(db.posts, idText, guildId)
               case None => reply == NotFound
               case Some(post) => reply == ShowForm(EditForm(post)))
  {
    if !CanManagePosts(member, db.configs) {
      return NoPermission;
    }
    var post := FindPost(db.posts, idText, guildId);
    if post.None? {
      return NotFound;
    }
    reply := ShowForm(EditForm(post.value));
  }

  // ----------------------------------------------------------- submission

  /** The platform's answers during a submission: the post's channel, whether
      the old message could be fetched (and so a delete is attempted; a
      failing delete is ignored), and the id of the new message (None when
      sending throws). */
  datatype EditIo = EditIo(channel: ChannelFetch, oldMessageFound: bool, sent: Option<MessageId>)

  /** How a submission ends. `FieldMissing` sends nothing to the user: a
      missing field makes `getTextInputValue` throw, the exception reaches the
      client's logger and the interaction gets no answer. Every other
      constructor is an ephemeral reply. */
  datatype SubmitReply = Invalid | FieldMissing | PostNotFound | Denied | ChannelNotFound | EditFailed | Updated

  /** What the channel shows after a repost: the embed and the button. */
  datatype Repost = Repost(embed: Embed, buttonId: string)

  /** The id of the button under a reposted post. */
  function EditButtonId(id: nat): (b: string)
    ensures StartsWith(b, "editpost-btn-")
    ensures b[|"editpost-btn-"|..] == NatToString(id)
  {
    StartsWithConcat("editpost-btn-", NatToString(id));
    "editpost-btn-" + NatToString(id)
  }

  /** The post after an edit: the new title, content and tags, the editor,
      the new message, and a fresh `updatedAt`. Its id, guild, channel, author
      and creation time are those of the original. */
  function Edited(post: Post, title: string, content: string, tags: seq<string>,
                  editor: UserId, messageId: MessageId, now: nat): (q: Post)
    ensures q.id == post.id && q.guildId == post.guildId && q.channelId == post.channelId
    ensures q.authorId == post.authorId && q.authorName == post.authorName && q.createdAt == post.createdAt
    ensures q.attachments == post.attachments
    ensures q.title == title && q.content == content && q.tags == tags
    ensures q.lastEditedBy == Some(editor) && q.messageId == messageId && q.updatedAt == now
  {
    post.(title := title, content := content, tags := tags, lastEditedBy := Some(editor),
          messageId := messageId, updatedAt := now)
  }

  /** A post found in the table has a row position. */
  lemma FoundPostHasIndex(posts: seq<Post>, p: Post)
    requires p in posts
    ensures PostIndex(posts, p.id).Some?
  {
    var i :| 0 <= i < |posts| && posts[i] == p;
  }

  /** `handleEditPostModal`: decode, read the fields, find the post, check the
      `edit` grant on its channel, fetch the channel, delete the old message
      where it can be fetched, send the new one, and rewrite the post. */
  method HandleEditPostModal(db: Db, customId: string, fields: map<string, string>, user: User,
                             guildId: GuildId, io: EditIo, now: nat)
    returns (reply: SubmitReply, repost: Option<Repost>, deleteAttempted: bool)
    requires db.Valid()
    modifies db
    ensures db.Valid()
    ensures db.configs == old(db.configs) && db.grants == old(db.grants) && db.nextPostId == old(db.nextPostId)
    ensures DecodeEditToken(customId).None? ==> reply == Invalid && db.posts == old(db.posts)
    ensures reply != Updated ==> db.posts == old(db.posts) && repost.None?
    ensures DecodeEditToken(customId).Some? && HasFields(fields) ==>
              (match FindPost(old(db.posts), DecodeEditToken(customId).value, guildId)
              case None => reply == PostNotFound
              case Some(post) =>
                && (!CanUserManagePosts(db.grants, guildId, post.channelId, user.id, EditAction) ==> reply == Denied)
                && (CanUserManagePosts(db.grants, guildId, post.channelId, user.id, EditAction) ==>
                      && (io.channel.FetchFailed? ==> reply == EditFailed)
                      && (io.channel.Missing? || (io.channel.Found? && !io.channel.textBased) ==> reply == ChannelNotFound)
                      && (io.channel.Found? && io.channel.textBased ==>
                            && deleteAttempted == io.oldMessageFound
                            && (io.sent.None? ==> reply == EditFailed)
                            && (io.sent.Some? ==>
                                  var tags := ParseTags(fields[TagsField]);
                                  var edited := Edited(post, fields[TitleField], fields[ContentField], tags,
                                                       user.id, io.sent.value, now);
                                  && reply == Updated
                                  && db.posts == old(db.posts)[PostIndex(old(db.posts), post.id).value := edited]
                                  && repost == Some(Repost(PostEmbed(fields[TitleField], fields[ContentField], user.username,
                                                                     Footer(post.id, tags, None)),
                                                           EditButtonId(post.id)))))))
    ensures DecodeEditToken(customId).Some? && !HasFields(fields) ==> reply == FieldMissing
  {
    deleteAttempted := false;
    repost := None;
    var postId := DecodeEditToken(customId);
    if postId.None? {
      return Invalid, None, false;
    }
    if TitleField !in fields || ContentField !in fields || TagsField !in fields {
      return FieldMissing, None, false;
    }
    var newTitle := fields[TitleField];
    var newContent := fields[ContentField];
    var newTagsString := fields[TagsField];
    var newTags := ParseTags(newTagsString);

    var found := FindPost(db.posts, postId.value, guildId);
    if found.None? {
      return PostNotFound, None, false;
    }
    var post := found.value;

    var hasPerm := CanUserManagePosts(db.grants, guildId, post.channelId, user.id, EditAction);
    if !hasPerm {
      return Denied, None, false;
    }

    if io.channel.FetchFailed? {
      return EditFailed, None, false;
    }
    if io.channel.Missing? || !io.channel.textBased {
      return ChannelNotFound, None, false;
    }

    var footerText := Footer(post.id, newTags, None);
    var embed := PostEmbed(newTitle, newContent, user.username, footerText);
    if io.oldMessageFound {
      deleteAttempted := true;
    }
    var editButton := EditButtonId(post.id);
    if io.sent.None? {
      return EditFailed, None, deleteAttempted;
    }
    FoundPostHasIndex(db.posts, post);
    // The channel was fetched by the post's channel id, so the channel id
    // written back is the one already stored.
    var updated := post.(title := newTitle, content := newContent, tags := newTags,
                         lastEditedBy := Some(user.id), messageId := io.sent.value,
                         channelId := post.channelId);
    db.SavePost(updated, now);
    repost := Some(Repost(embed, editButton));
    reply := Updated;
  }

  // --------------------------------------------------------------- quirks

  /** The form is opened behind the role gate, but the submission asks the
      grant table only: the guild owner passes the first and, in any grant
      table without an `edit` grant for the owner on the post's channel, is
      refused by the second, so the submission replies `Denied`. */
  lemma OwnerPassesGateButNotSubmission(m: Member, configs: map<GuildId, ServerConfig>,
                                        grants: seq<ChannelPermission>, channelId: ChannelId)
    requires IsServerOwner(m)
    requires var g := FindGrant(grants, GrantKey(m.guildId, channelId, m.id)); g.None? || !g.value.canEdit
    ensures CanManagePosts(m, configs)
    ensures !CanUserManagePosts(grants, m.guildId, channelId, m.id, EditAction)
  {
  }

  /** Conversely a user with an `edit` grant but neither ownership,
      administrator rights nor an allowed role can submit, yet cannot open
      the form through the command. */
  lemma GrantAloneDoesNotOpenForm(m: Member, configs: map<GuildId, ServerConfig>,
                                  grants: seq<ChannelPermission>, channelId: ChannelId)
    requires !IsServerOwner(m) && !m.isAdmin
    requires m.guildId !in configs || !HasAllowedRole(m.roles, configs[m.guildId].allowedRoles)
    requires var g := FindGrant(grants, GrantKey(m.guildId, channelId, m.id)); g.Some? && g.value.canEdit
    ensures !CanManagePosts(m, configs)
    ensures CanUserManagePosts(grants, m.guildId, channelId, m.id, EditAction)
  {
  }
}

=== FILE: interaction_create.dfy ===
/** `handleInteractionCreate`: the dispatcher. Autocomplete requests on the
    post-id option are answered from the guild's newest posts; slash commands
    are looked up in the registry; the edit button under a post opens a form;
    form submissions are routed on their id's prefix. */
module InteractionCreate {
  import opened Wrappers
  import opened Text
  import opened Models
  import opened Store
  import opened Permissions
  import CreatePost
  import EditPost
  import PostView

  // --------------------------------------------------------- autocomplete

  /** The commands whose `id` option is autocompleted. */
  const AutocompleteCommands: set<string> := {"editpost", "snote-edit", "sn-edit", "snote-delete", "sn-delete"}

  /** The names the commands declare: create, help, delete, config, grant,
      permission listing, edit and listing, with their short aliases. */
  const DeclaredCommands: set<string> :=
    {"snote-create", "sn-create", "snote-help", "sn-help", "deletepost", "config", "config-grant",
     "list-permissions", "snote-edit", "sn-edit", "snote-list", "sn-list"}

  /** Of the five autocompleted names only the two edit commands exist:
      `editpost`, `snote-delete` and `sn-delete` name no command, and the
      delete command, `deletepost`, is not among them. */
  lemma AutocompleteServesEditOnly()
    ensures AutocompleteCommands * DeclaredCommands == {"snote-edit", "sn-edit"}
    ensures "deletepost" in DeclaredCommands && "deletepost" !in AutocompleteCommands
  {
  }

  /** At most this many posts are read, and at most this many choices sent. */
  const ChoiceLimit: nat := 25

  /** Autocomplete answers only for those commands and the focused option `id`. */
  predicate AutocompleteApplies(commandName: string, focusedOption: string) {
    commandName in AutocompleteCommands && focusedOption == "id"
  }

  /** One suggestion: shown as `<title> (#<id>)`, sent back as the id. */
  datatype Choice = Choice(name: string, value: string)

  function ChoiceOf(p: Post): (c: Choice)
    ensures c.value == NatToString(p.id)
  {
    Choice(p.title + " (#" + NatToString(p.id) + ")", NatToString(p.id))
  }

  /** The posts mapped to their choices, in order. */
  function ChoicesOf(posts: seq<Post>): (cs: seq<Choice>)
    ensures |cs| == |posts|
    ensures forall i :: 0 <= i < |posts| ==> cs[i] == ChoiceOf(posts[i])
  {
    if posts == [] then [] else [ChoiceOf(posts[0])] + ChoicesOf(posts[1..])
  }

  /** A choice is kept when its lower-cased name contains the lower-cased
      typed text, or its value contains the typed text as it is. */
  predicate Keeps(c: Choice, focused: string) {
    Contains(ToLower(c.name), ToLower(focused)) || Contains(c.value, focused)
  }

  /** `.filter(...)`: the kept choices in their order. */
  function FilterChoices(cs: seq<Choice>, focused: string): (r: seq<Choice>)
    ensures |r| <= |cs|
    ensures forall c :: c in r <==> c in cs && Keeps(c, focused)
  {
    if cs == [] then []
    else (if Keeps(cs[0], focused) then [cs[0]] else []) + FilterChoices(cs[1..], focused)
  }

  /** The choices sent: the guild's 25 newest posts as choices, filtered,
      then cut to 25. */
  function AutocompleteChoices(posts: seq<Post>, guildId: GuildId, focused: string): seq<Choice> {
    var newest := FindAllNewest(posts, guildId, None, ChoiceLimit);
    Take(FilterChoices(ChoicesOf(newest), focused), ChoiceLimit)
  }

  /** The posts whose choices are kept, in order. */
  function KeptPosts(posts: seq<Post>, focused: string): (r: seq<Post>)
    ensures |r| <= |posts|
    ensures forall p :: p in r ==> p in posts && Keeps(ChoiceOf(p), focused)
  {
    if posts == [] then []
    else (if Keeps(ChoiceOf(posts[0]), focused) then [posts[0]] else []) + KeptPosts(posts[1..], focused)
  }

  /** Filtering the choices is filtering the posts, then mapping them. */
  lemma {:induction false} FilterOfChoices(posts: seq<Post>, focused: string)
    ensures FilterChoices(ChoicesOf(posts), focused) == ChoicesOf(KeptPosts(posts, focused))
  {
    if posts != [] {
      FilterOfChoices(posts[1..], focused);
      var cs := ChoicesOf(posts);
      assert cs[1..] == ChoicesOf(posts[1..]);
      var head := if Keeps(ChoiceOf(posts[0]), focused) then [posts[0]] else [];
      ChoicesOfAppend(head, KeptPosts(posts[1..], focused));
    }
  }

  lemma ChoicesOfAppend(a: seq<Post>, b: seq<Post>)
    ensures ChoicesOf(a + b) == ChoicesOf(a) + ChoicesOf(b)
  {
    var l := ChoicesOf(a + b);
    var r := ChoicesOf(a) + ChoicesOf(b);
    assert |l| == |r|;
    forall i | 0 <= i < |l| ensures l[i] == r[i] {
      if i < |a| {
        assert (a + b)[i] == a[i];
        assert r[i] == ChoicesOf(a)[i];
      } else {
        assert (a + b)[i] == b[i - |a|];
        assert r[i] == ChoicesOf(b)[i - |a|];
      }
    }
  }

  /** Keeping some posts of a newest-first list keeps it newest first. */
  lemma {:induction false} KeptPostsNewestFirst(posts: seq<Post>, focused: string)
    requires NewestFirst(posts)
    ensures NewestFirst(KeptPosts(posts, focused))
  {
    if posts != [] {
      var t := posts[1..];
      TailNewestFirst(posts);
      KeptPostsNewestFirst(t, focused);
      var r := KeptPosts(t, focused);
      if Keeps(ChoiceOf(posts[0]), focused) {
        HeadIsNewestOfAll(posts);
        assert forall x :: x in r ==> x in posts;
        ConsNewestFirst(posts[0], r);
      }
    }
  }

  /** With no text typed, every post keeps its choice. */
  lemma {:induction false} EmptyFocusKeepsAll(posts: seq<Post>)
    ensures KeptPosts(posts, "") == posts
  {
    if posts != [] {
      assert ToLower("") == "";
      ContainsEmpty(ToLower(ChoiceOf(posts[0]).name));
      EmptyFocusKeepsAll(posts[1..]);
      assert posts == [posts[0]] + posts[1..];
    }
  }

  /** The choices are those of posts of the guild, newest first, that match
      the typed text; at most 25; each value selects its post; the final cut
      to 25 changes nothing; and with nothing typed every one of the 25
      newest posts is offered. */
  lemma AutocompleteCorrect(posts: seq<Post>, nextPostId: nat, guildId: GuildId, focused: string)
    requires PostIdsValid(posts, nextPostId)
    ensures var newest := FindAllNewest(posts, guildId, None, ChoiceLimit);
            var kept := KeptPosts(newest, focused);
            var choices := AutocompleteChoices(posts, guildId, focused);
            && choices == ChoicesOf(kept)
            && |choices| <= ChoiceLimit
            && NewestFirst(kept)
            && (forall i :: 0 <= i < |kept| ==>
                  && kept[i] in posts && kept[i].guildId == guildId
                  && Keeps(choices[i], focused)
                  && FindPost(posts, choices[i].value, guildId) == Some(kept[i]))
            && (focused == "" ==> choices == ChoicesOf(newest))
  {
    var newest := FindAllNewest(posts, guildId, None, ChoiceLimit);
    var kept := KeptPosts(newest, focused);
    FindAllNewestCorrect(posts, guildId, None, ChoiceLimit);
    FilterOfChoices(newest, focused);
    KeptPostsNewestFirst(newest, focused);
    var filtered := FilterChoices(ChoicesOf(newest), focused);
    assert Take(filtered, ChoiceLimit) == filtered;
    KeptPostsSelect(posts, nextPostId, guildId, newest, focused);
    if focused == "" {
      EmptyFocusKeepsAll(newest);
    }
  }

  /** A kept post is a post of the guild, and its choice's value selects it. */
  lemma KeptPostsSelect(posts: seq<Post>, nextPostId: nat, guildId: GuildId, newest: seq<Post>, focused: string)
    requires PostIdsValid(posts, nextPostId)
    requires forall i :: 0 <= i < |newest| ==> newest[i] in posts && InScope(newest[i], guildId, None)
    ensures var kept := KeptPosts(newest, focused);
            forall i :: 0 <= i < |kept| ==>
              && kept[i] in posts && kept[i].guildId == guildId
              && Keeps(ChoicesOf(kept)[i], focused)
              && FindPost(posts, ChoicesOf(kept)[i].value, guildId) == Some(kept[i])
  {
    var kept := KeptPosts(newest, focused);
    forall i | 0 <= i < |kept|
      ensures kept[i] in posts && kept[i].guildId == guildId
      ensures FindPost(posts, ChoicesOf(kept)[i].value, guildId) == Some(kept[i])
    {
      assert kept[i] in kept;
      var k :| 0 <= k < |newest| && newest[k] == kept[i];
      ShownIdSelectsPost(posts, nextPostId, kept[i]);
    }
  }

  // ------------------------------------------------------------- commands

  /** How a registered command's `execute` ended: whether it threw, and
      whether the interaction had been replied to or deferred by then. */
  datatype CommandRun = CommandRun(threw: bool, repliedOrDeferred: bool)

  // --------------------------------------------------------------- button

  const EditButtonPrefix: string := "editpost-btn-"

  /** The field id of the form the button opens: its only field. */
  const ButtonContentField: string := "editpost-content"

  /** `customId.replace('editpost-btn-', '')` on an id that starts with the
      prefix: what follows the prefix. */
  function ButtonPostId(customId: string): (idText: Option<string>)
    ensures idText.Some? <==> StartsWith(customId, EditButtonPrefix)
    ensures idText.Some? ==> customId == EditButtonPrefix + idText.value
  {
    if StartsWith(customId, EditButtonPrefix) then
      assert customId == customId[..|EditButtonPrefix|] + customId[|EditButtonPrefix|..];
      Some(customId[|EditButtonPrefix|..])
    else None
  }

  /** The button under a reposted post decodes to that post's id. */
  lemma EditButtonRoundTrip(id: nat)
    ensures ButtonPostId(EditPost.EditButtonId(id)) == Some(NatToString(id))
  {
  }

  /** The button added by the create handler is never routed: its id starts
      `editpost:`, not `editpost-btn-`. */
  lemma CreateButtonNeverRouted(userId: UserId, title: string, postId: nat)
    ensures ButtonPostId(CreatePost.CreateButtonId(userId, title, postId)).None?
  {
    var b := CreatePost.CreateButtonId(userId, title, postId);
    assert b[..9] == "editpost:";
    assert b[8] == ':';
  }

  // ------------------------------------------------------------- dispatch

  /** An incoming interaction, as far as the dispatcher looks at it. */
  datatype Interaction =
    | Autocomplete(commandName: string, focusedOption: string, focused: string, guildId: GuildId)
    | ChatCommand(commandName: string)
    | ButtonPress(customId: string, member: Member, guildId: GuildId)
    | ModalSubmit(customId: string, fields: map<string, string>, submitter: Option<Member>, user: User,
                  guildId: GuildId)
    | OtherInteraction

  /** What the dispatcher answers. A submitted form's outcome is the
      handler's own `SubmitReply`, some of whose constructors mean that
      nothing was sent (`CreatePost.SubmitReply.FieldMissing`,
      `CreatePost.SubmitReply.Unanswered`, `EditPost.SubmitReply.FieldMissing`). */
  datatype Response =
    | NoResponse
    | Suggest(choices: seq<Choice>)
    | CommandHandled
    | ErrorFollowUp
    | ErrorReply
    | ButtonPostNotFound
    | ButtonNoPermission
    | ContentForm(customId: string, content: string)
    | CreateSubmitted(created: CreatePost.SubmitReply)
    | EditSubmitted(edited: EditPost.SubmitReply)

  /** Where a submitted form goes. */
  datatype ModalRoute = ToCreate | ToEdit | Ignored

  /** Routing on the form id's prefix, create first. */
  function RouteModal(customId: string): (route: ModalRoute)
    ensures route == ToCreate <==> StartsWith(customId, CreatePost.CreateModalPrefix)
    ensures route == ToEdit <==>
              !StartsWith(customId, CreatePost.CreateModalPrefix) && StartsWith(customId, EditPost.EditModalPrefix)
  {
    if StartsWith(customId, CreatePost.CreateModalPrefix) then ToCreate
    else if StartsWith(customId, EditPost.EditModalPrefix) then ToEdit
    else Ignored
  }

  /** The forms each command shows are routed back to their own handler. */
  lemma FormsRouteHome(channelId: ChannelId, id: nat)
    ensures RouteModal(CreatePost.CreateToken(channelId)) == ToCreate
    ensures RouteModal(EditPost.EditToken(id)) == ToEdit
  {
    var t := EditPost.EditToken(id);
    assert t[..15] == EditPost.EditModalPrefix;
    assert t[1] == 'd';
  }

  /** The button's answer: the post is looked up first, then the role gate;
      then the one-field form pre-filled with the post's content. */
  function ButtonResponse(posts: seq<Post>, configs: map<GuildId, ServerConfig>, customId: string,
                          member: Member, guildId: GuildId): (r: Response)
    requires ButtonPostId(customId).Some?
    ensures r.ButtonPostNotFound? <==> FindPost(posts, ButtonPostId(customId).value, guildId).None?
    ensures r.ButtonNoPermission? <==>
              FindPost(posts, ButtonPostId(customId).value, guildId).Some? && !CanManagePosts(member, configs)
    ensures FindPost(posts, ButtonPostId(customId).value, guildId).Some? && CanManagePosts(member, configs) ==>
              var post := FindPost(posts, ButtonPostId(customId).value, guildId).value;
              r == ContentForm(EditPost.EditToken(post.id), post.content)
  {
    match FindPost(posts, ButtonPostId(customId).value, guildId)
    case None => ButtonPostNotFound
    case Some(post) =>
      if !CanManagePosts(member, configs) then ButtonNoPermission
      else ContentForm(EditPost.EditToken(post.id), post.content)
  }

  /** The form the button opens cannot be submitted successfully: it has the
      content field only, and the edit handler needs title, content and tags. */
  lemma ButtonFormIsRefused(content: string)
    ensures !PostView.HasFields(map[ButtonContentField := content])
  {
    assert PostView.TitleField !in map[ButtonContentField := content];
  }

  /** `handleInteractionCreate`. Autocomplete, commands and buttons read the
      store only; a submitted form goes to the create or the edit handler,
      or is ignored. */
  method HandleInteraction(db: Db, interaction: Interaction, registry: set<string>, run: CommandRun,
                           createIo: CreatePost.CreateIo, editIo: EditPost.EditIo, now: nat)
    returns (response: Response)
    requires db.Valid()
    modifies db
    ensures db.Valid()
    ensures db.configs == old(db.configs) && db.grants == old(db.grants)
    ensures !(interaction.ModalSubmit? && RouteModal(interaction.customId) != Ignored) ==>
              db.posts == old(db.posts) && db.nextPostId == old(db.nextPostId)
    ensures interaction.Autocomplete? ==>
              response == if AutocompleteApplies(interaction.commandName, interaction.focusedOption)
                          then Suggest(AutocompleteChoices(old(db.posts), interaction.guildId, interaction.focused))
                          else NoResponse
    ensures interaction.ChatCommand? ==>
              response == if interaction.commandName !in registry then NoResponse
                          else if !run.threw then CommandHandled
                          else if run.repliedOrDeferred then ErrorFollowUp
                          else ErrorReply
    ensures interaction.ButtonPress? ==>
              response == if ButtonPostId(interaction.customId).None? then NoResponse
                          else ButtonResponse(old(db.posts), old(db.configs), interaction.customId,
                                              interaction.member, interaction.guildId)
    ensures interaction.ModalSubmit? ==>
              match RouteModal(interaction.customId)
              case ToCreate => response.CreateSubmitted?
              case ToEdit => response.EditSubmitted?
              case Ignored => response == NoResponse
    ensures interaction.OtherInteraction? ==> response == NoResponse
  {
    match interaction
    case Autocomplete(commandName, focusedOption, focused, guildId) =>
      if AutocompleteApplies(commandName, focusedOption) {
        var newest := FindAllNewest(db.posts, guildId, None, ChoiceLimit);
        var choices := FilterChoices(ChoicesOf(newest), focused);
        response := Suggest(Take(choices, ChoiceLimit));
      } else {
        response := NoResponse;
      }
    case ChatCommand(commandName) =>
      if commandName !in registry {
        response := NoResponse;
      } else if !run.threw {
        response := CommandHandled;
      } else if run.repliedOrDeferred {
        response := ErrorFollowUp;
      } else {
        response := ErrorReply;
      }
    case ButtonPress(customId, member, guildId) =>
      if StartsWith(customId, EditButtonPrefix) {
        var postId := customId[|EditButtonPrefix|..];
        var post := FindPost(db.posts, postId, guildId);
        if post.None? {
          response := ButtonPostNotFound;
        } else if !CanManagePosts(member, db.configs) {
          response := ButtonNoPermission;
        } else {
          response := ContentForm(EditPost.EditToken(post.value.id), post.value.content);
        }
      } else {
        response := NoResponse;
      }
    case ModalSubmit(customId, fields, member, user, guildId) =>
      if StartsWith(customId, CreatePost.CreateModalPrefix) {
        var reply, _ := CreatePost.HandleCreatePostModal(db, customId, fields, member, user, guildId, createIo, now);
        response := CreateSubmitted(reply);
      } else if StartsWith(customId, EditPost.EditModalPrefix) {
        var reply, _, _ := EditPost.HandleEditPostModal(db, customId, fields, user, guildId, editIo, now);
        response := EditSubmitted(reply);
      } else {
        response := NoResponse;
      }
    case OtherInteraction =>
      response := NoResponse;
  }
}

=== FILE: list_permissions.dfy ===
/** `/list-permissions`: the grant records of the guild, optionally of one
    channel, grouped by channel in order of first appearance, one line per
    user with the labels of the flags set. The command has no permission
    check. */
module ListPermissions {
  import opened Wrappers
  import opened Text
  import opened Models
  import opened PostView

  datatype ListReply = NoPermissions | Listing(fields: seq<EmbedField>)

  /** One user's line within a channel group. */
  datatype UserGrant = UserGrant(userId: UserId, flags: string)

  /** The records the query returns: the guild's, and the channel's when one
      is given, in table order. */
  function Selected(grants: seq<ChannelPermission>, guildId: GuildId, channel: Option<ChannelId>)
    : (r: seq<ChannelPermission>)
    ensures forall p :: p in r <==>
              p in grants && p.guildId == guildId && (channel.None? || p.channelId == channel.value)
  {
    if grants == [] then []
    else
      var p := grants[0];
      (if p.guildId == guildId && (channel.None? || p.channelId == channel.value) then [p] else [])
        + Selected(grants[1..], guildId, channel)
  }

  // --------------------------------------------------------------- labels

  /** The flags set, as `create`, `edit`, `delete` in that order joined by
      `, `, or `none` when no flag is set. */
  function FlagLabel(p: ChannelPermission): (shown: string)
    ensures shown == "none" <==> !p.canCreate && !p.canEdit && !p.canDelete
  {
    var names := (if p.canCreate then ["create"] else [])
                 + (if p.canEdit then ["edit"] else [])
                 + (if p.canDelete then ["delete"] else []);
    var joined := Join(names, ", ");
    if joined == "" then "none" else joined
  }

  /** The label tells which flags are set: two records with the same label
      have the same flags. */
  lemma LabelDeterminesFlags(p: ChannelPermission, q: ChannelPermission)
    requires FlagLabel(p) == FlagLabel(q)
    ensures p.canCreate == q.canCreate && p.canEdit == q.canEdit && p.canDelete == q.canDelete
  {
    LabelOfFlags(p);
    LabelOfFlags(q);
  }

  /** The eight labels written out. */
  lemma LabelOfFlags(p: ChannelPermission)
    ensures FlagLabel(p) == (
      match (p.canCreate, p.canEdit, p.canDelete)
      case (false, false, false) => "none"
      case (true, false, false) => "create"
      case (false, true, false) => "edit"
      case (false, false, true) => "delete"
      case (true, true, false) => "create, edit"
      case (true, false, true) => "create, delete"
      case (false, true, true) => "edit, delete"
      case (true, true, true) => "create, edit, delete")
  {
    var names := (if p.canCreate then ["create"] else [])
                 + (if p.canEdit then ["edit"] else [])
                 + (if p.canDelete then ["delete"] else []);
    if p.canCreate && p.canEdit && p.canDelete {
      assert names == ["create", "edit", "delete"];
      JoinTriple("create", "edit", "delete", ", ");
      assert "create" + ", " + ("edit" + ", " + "delete") == "create, edit, delete";
    } else if p.canCreate && p.canEdit {
      assert names == ["create", "edit"];
      JoinPair("create", "edit", ", ");
      assert "create" + ", " + "edit" == "create, edit";
    } else if p.canCreate && p.canDelete {
      assert names == ["create", "delete"];
      JoinPair("create", "delete", ", ");
      assert "create" + ", " + "delete" == "create, delete";
    } else if p.canEdit && p.canDelete {
      assert names == ["edit", "delete"];
      JoinPair("edit", "delete", ", ");
      assert "edit" + ", " + "delete" == "edit, delete";
    }
  }

  // ------------------------------------------------------------- grouping

  /** The channels of the records, each once, in order of first appearance
      (the key order of the grouping object: channel ids are not array
      indices, so insertion order applies). */
  function ChannelOrder(s: seq<ChannelPermission>): (order: seq<ChannelId>)
    ensures forall c :: c in order <==> exists p :: p in s && p.channelId == c
  {
    if s == [] then []
    else
      var last := s[|s| - 1];
      var order := ChannelOrder(s[..|s| - 1]);
      assert forall p :: p in s <==> p in s[..|s| - 1] || p == last by {
        assert s == s[..|s| - 1] + [last];
      }
      if last.channelId in order then order else order + [last.channelId]
  }

  /** The lines grouped under channel `c`: its records' users and labels, in
      table order. */
  function EntriesFor(s: seq<ChannelPermission>, c: ChannelId): seq<UserGrant> {
    if s == [] then []
    else
      var last := s[|s| - 1];
      EntriesFor(s[..|s| - 1], c) + (if last.channelId == c then [UserGrant(last.userId, FlagLabel(last))] else [])
  }

  /** The text of a channel group: per user `<@user>: `, a line break, and
      `- <label>`; the users' parts separated by line breaks. */
  function GroupText(entries: seq<UserGrant>): string {
    Join(seq(|entries|, i requires 0 <= i < |entries| => "<@" + entries[i].userId + ">: \n- " + entries[i].flags), "\n")
  }

  /** The field of one channel: named by the channel's mention, holding its
      group's text. */
  function GroupField(c: ChannelId, entries: seq<UserGrant>): EmbedField {
    EmbedField("<#" + c + ">", GroupText(entries))
  }

  /** One field per channel, in the channel order. */
  function GroupFields(s: seq<ChannelPermission>): (fields: seq<EmbedField>)
    ensures |fields| == |ChannelOrder(s)|
  {
    var order := ChannelOrder(s);
    seq(|order|, i requires 0 <= i < |order| => GroupField(order[i], EntriesFor(s, order[i])))
  }

  predicate Distinct(order: seq<ChannelId>) {
    forall i, j :: 0 <= i < j < |order| ==> order[i] != order[j]
  }

  /** `execute`: the query, the empty reply, the grouping of the records,
      then one field per group. */
  method Execute(grants: seq<ChannelPermission>, guildId: GuildId, channel: Option<ChannelId>)
    returns (reply: ListReply)
    ensures var perms := Selected(grants, guildId, channel);
            reply == if perms == [] then NoPermissions else Listing(GroupFields(perms))
  {
    var perms := Selected(grants, guildId, channel);
    if |perms| == 0 {
      return NoPermissions;
    }
    var channelMap, order := GroupByChannel(perms);
    var fields := BuildFields(perms, channelMap, order);
    reply := Listing(fields);
  }

  /** The field loop of `execute`: one field per key of the grouping object,
      in the order the keys were created. */
  method BuildFields(perms: seq<ChannelPermission>, channelMap: map<ChannelId, seq<UserGrant>>, order: seq<ChannelId>)
    returns (fields: seq<EmbedField>)
    requires order == ChannelOrder(perms)
    requires forall c :: c in order ==> c in channelMap && channelMap[c] == EntriesFor(perms, c)
    ensures fields == GroupFields(perms)
  {
    fields := [];
    for k := 0 to |order|
      invariant |fields| == k
      invariant forall m :: 0 <= m < k ==> fields[m] == GroupField(order[m], EntriesFor(perms, order[m]))
    {
      fields := fields + [GroupField(order[k], channelMap[order[k]])];
    }
    var all := GroupFields(perms);
    forall m | 0 <= m < |all| ensures fields[m] == all[m] {
    }
  }

  /** The grouping object after the records of `s`: the list of each channel
      seen, with one more line for each record. */
  function GroupMap(s: seq<ChannelPermission>): map<ChannelId, seq<UserGrant>> {
    if s == [] then map[]
    else
      var m := GroupMap(s[..|s| - 1]);
      var x := s[|s| - 1];
      m[x.channelId := (if x.channelId in m then m[x.channelId] else []) + [UserGrant(x.userId, FlagLabel(x))]]
  }

  /** The grouping loop: a list per channel, created on the channel's first
      record, and the channels in the order they were created. */
  method GroupByChannel(perms: seq<ChannelPermission>)
    returns (channelMap: map<ChannelId, seq<UserGrant>>, order: seq<ChannelId>)
    ensures order == ChannelOrder(perms)
    ensures forall c :: c in channelMap <==> c in order
    ensures forall c :: c in channelMap ==> channelMap[c] == EntriesFor(perms, c)
  {
    channelMap := map[];
    order := [];
    for i := 0 to |perms|
      invariant order == ChannelOrder(perms[..i])
      invariant channelMap == GroupMap(perms[..i])
    {
      var perm := perms[i];
      assert perms[..i + 1] == perms[..i] + [perm];
      GroupStep(perms[..i], perm);
      var list := [];
      if perm.channelId in channelMap {
        list := channelMap[perm.channelId];
      } else {
        order := order + [perm.channelId];
      }
      channelMap := channelMap[perm.channelId := list + [UserGrant(perm.userId, FlagLabel(perm))]];
    }
    assert perms[..|perms|] == perms;
    GroupMapKeys(perms);
    GroupMapEntries(perms);
  }

  /** One more record: its channel joins the order if new, and its line is
      appended to its channel's list. */
  lemma GroupStep(s: seq<ChannelPermission>, x: ChannelPermission)
    ensures ChannelOrder(s + [x]) ==
              if x.channelId in ChannelOrder(s) then ChannelOrder(s) else ChannelOrder(s) + [x.channelId]
    ensures x.channelId in GroupMap(s) <==> x.channelId in ChannelOrder(s)
    ensures var m := GroupMap(s);
            GroupMap(s + [x]) ==
              m[x.channelId := (if x.channelId in m then m[x.channelId] else []) + [UserGrant(x.userId, FlagLabel(x))]]
  {
    assert (s + [x])[..|s|] == s;
    GroupMapKeys(s);
  }

  /** The grouping object has a list for exactly the channels of the order. */
  lemma {:induction false} GroupMapKeys(s: seq<ChannelPermission>)
    ensures forall c :: c in GroupMap(s) <==> c in ChannelOrder(s)
  {
    if s != [] {
      GroupMapKeys(s[..|s| - 1]);
    }
  }

  /** The list of each channel in the grouping object is its lines. */
  lemma {:induction false} GroupMapEntries(s: seq<ChannelPermission>)
    ensures forall c :: c in GroupMap(s) ==> GroupMap(s)[c] == EntriesFor(s, c)
  {
    if s != [] {
      var init := s[..|s| - 1];
      var x := s[|s| - 1];
      GroupMapEntries(init);
      GroupMapKeys(init);
      if x.channelId !in GroupMap(init) {
        EntriesOfAbsentChannel(init, x.channelId);
      }
    }
  }

  // --------------------------------------------------------------- lemmas

  /** A channel without records has no lines. */
  lemma {:induction false} EntriesOfAbsentChannel(s: seq<ChannelPermission>, c: ChannelId)
    requires c !in ChannelOrder(s)
    ensures EntriesFor(s, c) == []
  {
    if s != [] {
      var init := s[..|s| - 1];
      assert forall p :: p in init ==> p in s;
      EntriesOfAbsentChannel(init, c);
    }
  }

  /** Each channel is grouped once. */
  lemma {:induction false} ChannelOrderDistinct(s: seq<ChannelPermission>)
    ensures Distinct(ChannelOrder(s))
  {
    if s != [] {
      ChannelOrderDistinct(s[..|s| - 1]);
    }
  }

  /** Every record of the listing shows up under its own channel. */
  lemma {:induction false} RecordListedUnderItsChannel(s: seq<ChannelPermission>, k: nat)
    requires k < |s|
    ensures s[k].channelId in ChannelOrder(s)
    ensures UserGrant(s[k].userId, FlagLabel(s[k])) in EntriesFor(s, s[k].channelId)
  {
    assert s[k] in s;
    if k < |s| - 1 {
      var init := s[..|s| - 1];
      assert init[k] == s[k];
      RecordListedUnderItsChannel(init, k);
    }
  }

  /** Every line under a channel comes from a record of that channel. */
  lemma {:induction false} EntriesComeFromRecords(s: seq<ChannelPermission>, c: ChannelId, e: UserGrant)
    requires e in EntriesFor(s, c)
    ensures exists p :: p in s && p.channelId == c && e == UserGrant(p.userId, FlagLabel(p))
  {
    var init := s[..|s| - 1];
    var last := s[|s| - 1];
    if e in EntriesFor(init, c) {
      EntriesComeFromRecords(init, c, e);
      var p :| p in init && p.channelId == c && e == UserGrant(p.userId, FlagLabel(p));
      assert p in s;
    } else {
      assert last in s;
    }
  }

  /** The number of lines in the groups of `order`. */
  function Total(s: seq<ChannelPermission>, order: seq<ChannelId>): nat {
    if order == [] then 0 else |EntriesFor(s, order[0])| + Total(s, order[1..])
  }

  /** A record appended in a channel outside `order` adds no line there. */
  lemma {:induction false} TotalUnchanged(s: seq<ChannelPermission>, x: ChannelPermission, order: seq<ChannelId>)
    requires x.channelId !in order
    ensures Total(s + [x], order) == Total(s, order)
  {
    if order != [] {
      assert (s + [x])[..|s|] == s;
      TotalUnchanged(s, x, order[1..]);
    }
  }

  /** A record appended in a channel listed once in `order` adds one line. */
  lemma {:induction false} TotalGrows(s: seq<ChannelPermission>, x: ChannelPermission, order: seq<ChannelId>)
    requires x.channelId in order && Distinct(order)
    ensures Total(s + [x], order) == Total(s, order) + 1
  {
    assert (s + [x])[..|s|] == s;
    if order[0] == x.channelId {
      assert x.channelId !in order[1..];
      TotalUnchanged(s, x, order[1..]);
    } else {
      TotalGrows(s, x, order[1..]);
    }
  }

  lemma {:induction false} TotalAppend(s: seq<ChannelPermission>, order: seq<ChannelId>, c: ChannelId)
    ensures Total(s, order + [c]) == Total(s, order) + |EntriesFor(s, c)|
  {
    if order != [] {
      assert (order + [c])[1..] == order[1..] + [c];
      TotalAppend(s, order[1..], c);
    } else {
      assert [c][1..] == [];
    }
  }

  /** The groups hold exactly as many lines as there are records: none is
      lost or shown twice. */
  lemma {:induction false} GroupsHoldEveryRecordOnce(s: seq<ChannelPermission>)
    ensures Total(s, ChannelOrder(s)) == |s|
  {
    if s != [] {
      var init := s[..|s| - 1];
      var x := s[|s| - 1];
      assert s == init + [x];
      var order := ChannelOrder(init);
      GroupsHoldEveryRecordOnce(init);
      ChannelOrderDistinct(init);
      if x.channelId in order {
        TotalGrows(init, x, order);
      } else {
        TotalUnchanged(init, x, order);
        TotalAppend(s, order, x.channelId);
        EntriesOfAbsentChannel(init, x.channelId);
      }
    }
  }

  /** The listing is empty exactly when no record is selected; otherwise it
      has one field per distinct channel, and its groups hold every selected
      record once. */
  lemma ListingCorrect(grants: seq<ChannelPermission>, guildId: GuildId, channel: Option<ChannelId>)
    ensures var perms := Selected(grants, guildId, channel);
            && Distinct(ChannelOrder(perms))
            && |GroupFields(perms)| == |ChannelOrder(perms)|
            && (perms == [] <==> ChannelOrder(perms) == [])
            && Total(perms, ChannelOrder(perms)) == |perms|
            && (channel.Some? && perms != [] ==> ChannelOrder(perms) == [channel.value])
  {
    var perms := Selected(grants, guildId, channel);
    ChannelOrderDistinct(perms);
    GroupsHoldEveryRecordOnce(perms);
    if perms != [] {
      assert perms[0] in perms;
    }
    if channel.Some? && perms != [] {
      SingleChannel(perms, channel.value);
    }
  }

  /** Records of one channel form a single group. */
  lemma {:induction false} SingleChannel(s: seq<ChannelPermission>, c: ChannelId)
    requires s != [] && forall p :: p in s ==> p.channelId == c
    ensures ChannelOrder(s) == [c]
  {
    var init := s[..|s| - 1];
    assert forall p :: p in init ==> p in s;
    if init != [] {
      SingleChannel(init, c);
    }
  }
}

=== FILE: list_posts.dfy ===
/** `/snote-list` (and `/sn-list`): behind the role gate, the ten newest posts
    of the guild, optionally of one channel, one embed field per post. */
module ListPosts {
  import opened Wrappers
  import opened Text
  import opened Models
  import opened Store
  import opened Permissions
  import opened PostView

  /** At most this many posts are listed. */
  const PageSize: nat := 10

  datatype ListReply = Denied | NoPosts | Listing(fields: seq<EmbedField>)

  /** The field of one listed post: named `ID: <id>`, showing the title in
      bold, the author's name and the creation date as `showDate` renders it.
      The content is not shown. */
  function PostField(p: Post, showDate: nat -> string): (f: EmbedField)
    ensures f.name == "ID: " + NatToString(p.id)
    ensures StartsWith(f.value, "**" + p.title + "**\nBy: " + p.authorName)
  {
    var head := "**" + p.title + "**\nBy: " + p.authorName;
    StartsWithConcat(head, "\nCreated: " + showDate(p.createdAt));
    EmbedField("ID: " + NatToString(p.id), head + ("\nCreated: " + showDate(p.createdAt)))
  }

  /** The fields of a listing, one per post in the listed order. */
  function ListFields(posts: seq<Post>, showDate: nat -> string): (fields: seq<EmbedField>)
    ensures |fields| == |posts|
  {
    seq(|posts|, i requires 0 <= i < |posts| => PostField(posts[i], showDate))
  }

  /** `execute`: the role gate, the query, the empty reply, then one field per
      post in query order. */
  method Execute(db: Db, member: Member, guildId: GuildId, channel: Option<ChannelId>,
                 showDate: nat -> string) returns (reply: ListReply)
    ensures !CanManagePosts(member, db.configs) <==> reply == Denied
    ensures CanManagePosts(member, db.configs) ==>
              var posts := FindAllNewest(db.posts, guildId, channel, PageSize);
              reply == if posts == [] then NoPosts else Listing(ListFields(posts, showDate))
  {
    if !CanManagePosts(member, db.configs) {
      return Denied;
    }
    var posts := FindAllNewest(db.posts, guildId, channel, PageSize);
    if |posts| == 0 {
      return NoPosts;
    }
    var fields: seq<EmbedField> := [];
    for i := 0 to |posts|
      invariant |fields| == i
      invariant forall k :: 0 <= k < i ==> fields[k] == PostField(posts[k], showDate)
    {
      fields := fields + [PostField(posts[i], showDate)];
    }
    reply := Listing(fields);
  }

  /** A listing holds at most ten fields; each names a post of the guild (of
      the channel when one is given) whose id, read back from the field name,
      selects that post; the posts are listed newest first, and no post in
      scope left out is newer than a listed one. */
  lemma ListingCorrect(posts: seq<Post>, nextPostId: nat, guildId: GuildId, channel: Option<ChannelId>,
                       showDate: nat -> string)
    requires PostIdsValid(posts, nextPostId)
    ensures var listed := FindAllNewest(posts, guildId, channel, PageSize);
            var fields := ListFields(listed, showDate);
            && |fields| <= PageSize
            && (forall i :: 0 <= i < |fields| ==>
                  && listed[i] in posts && InScope(listed[i], guildId, channel)
                  && StartsWith(fields[i].name, "ID: ")
                  && FindPost(posts, fields[i].name[4..], guildId) == Some(listed[i]))
            && NewestFirst(listed)
            && (forall q, i :: q in posts && InScope(q, guildId, channel) && q !in listed && 0 <= i < |listed| ==>
                  listed[i].createdAt >= q.createdAt)
  {
    var listed := FindAllNewest(posts, guildId, channel, PageSize);
    FindAllNewestCorrect(posts, guildId, channel, PageSize);
    FieldsSelectTheirPosts(posts, nextPostId, listed, showDate);
  }

  /** The id in each field's name selects the post shown in that field. */
  lemma FieldsSelectTheirPosts(posts: seq<Post>, nextPostId: nat, listed: seq<Post>, showDate: nat -> string)
    requires PostIdsValid(posts, nextPostId)
    requires forall i :: 0 <= i < |listed| ==> listed[i] in posts
    ensures var fields := ListFields(listed, showDate);
            forall i :: 0 <= i < |fields| ==>
              StartsWith(fields[i].name, "ID: ") && FindPost(posts, fields[i].name[4..], listed[i].guildId) == Some(listed[i])
  {
    var fields := ListFields(listed, showDate);
    forall i | 0 <= i < |fields|
      ensures StartsWith(fields[i].name, "ID: ")
      ensures FindPost(posts, fields[i].name[4..], listed[i].guildId) == Some(listed[i])
    {
      assert fields[i] == PostField(listed[i], showDate);
      StartsWithConcat("ID: ", NatToString(listed[i].id));
      ShownIdSelectsPost(posts, nextPostId, listed[i]);
    }
  }

  /** The listing does not show content: two tables that differ only in the
      posts' content list the same fields. */
  lemma ListingIgnoresContent(posts: seq<Post>, edited: seq<Post>, showDate: nat -> string)
    requires |posts| == |edited|
    requires forall i :: 0 <= i < |posts| ==> edited[i] == posts[i].(content := edited[i].content)
    ensures ListFields(edited, showDate) == ListFields(posts, showDate)
  {
  }
}

=== FILE: models.dfy ===
/** The three persisted record kinds: posts (the shared notes), per-channel
    per-user grants, and the per-guild server configuration. Timestamps are
    values of the clock given to the store when it writes a record. */
module Models {
  import opened Wrappers

  /** Platform identifiers ("snowflakes") travel as strings. */
  type GuildId = string
  type ChannelId = string
  type UserId = string
  type RoleId = string
  type MessageId = string

  /** A platform user as the handlers see one: id and username. */
  datatype User = User(id: UserId, username: string)

  /** A shared note. `id` is assigned by the store (auto-increment);
      `messageId` is the platform message that currently shows the note. */
  datatype Post = Post(
    id: nat,
    guildId: GuildId,
    channelId: ChannelId,
    messageId: MessageId,
    title: string,
    content: string,
    authorId: UserId,
    authorName: string,
    lastEditedBy: Option<UserId>,
    attachments: seq<string>,
    tags: seq<string>,
    createdAt: nat,
    updatedAt: nat)

  /** The composite primary key of a grant record. */
  datatype GrantKey = GrantKey(guildId: GuildId, channelId: ChannelId, userId: UserId)

  /** A per-channel, per-user grant. The record has no timestamps. */
  datatype ChannelPermission = ChannelPermission(
    guildId: GuildId,
    channelId: ChannelId,
    userId: UserId,
    canCreate: bool,
    canEdit: bool,
    canDelete: bool)
  {
    function Key(): GrantKey {
      GrantKey(guildId, channelId, userId)
    }
  }

  /** The grant record the store creates for a key when only the key is
      given: every flag at its default, false. */
  function DefaultPermission(key: GrantKey): (p: ChannelPermission)
    ensures p.Key() == key
    ensures !p.canCreate && !p.canEdit && !p.canDelete
  {
    ChannelPermission(key.guildId, key.channelId, key.userId, false, false, false)
  }

  /** One configuration per guild, keyed by `guildId`. */
  datatype ServerConfig = ServerConfig(
    guildId: GuildId,
    allowedRoles: seq<RoleId>,
    defaultChannelId: Option<ChannelId>,
    createdAt: nat,
    updatedAt: nat)

  /** The configuration the store creates for a guild seen for the first time:
      no allowed roles and no default channel. */
  function DefaultServerConfig(guildId: GuildId, now: nat): (c: ServerConfig)
    ensures c.guildId == guildId
    ensures c.allowedRoles == [] && c.defaultChannelId == None
    ensures c.createdAt == now && c.updatedAt == now
  {
    ServerConfig(guildId, [], None, now, now)
  }

  /** JavaScript truthiness of the optional `defaultChannelId`: an empty
      string counts as unset. */
  predicate HasDefaultChannel(c: ServerConfig) {
    c.defaultChannelId.Some? && c.defaultChannelId.value != ""
  }
}

=== FILE: permissions.dfy ===
/** Role-based post management permission: the server owner, then
    administrators, then members holding a role of the guild's allowed list. */
module Permissions {
  import opened Models

  /** The acting guild member: their user id and name, their guild and its
      owner, whether they hold the Administrator permission, and their roles. */
  datatype Member = Member(
    id: UserId,
    name: string,
    guildId: GuildId,
    guildOwnerId: UserId,
    isAdmin: bool,
    roles: seq<RoleId>)

  /** `isServerOwner`: the member owns the guild. */
  predicate IsServerOwner(m: Member) {
    m.guildOwnerId == m.id
  }

  /** `member.roles.cache.some(role => allowedRoles.includes(role.id))`. */
  function HasAllowedRole(roles: seq<RoleId>, allowedRoles: seq<RoleId>): (found: bool)
    ensures found <==> exists i :: 0 <= i < |roles| && roles[i] in allowedRoles
  {
    if roles == [] then false
    else if roles[0] in allowedRoles then true
    else
      var found := HasAllowedRole(roles[1..], allowedRoles);
      assert found ==> exists i :: 1 <= i < |roles| && roles[i] in allowedRoles by {
        if found {
          var i :| 0 <= i < |roles[1..]| && roles[1..][i] in allowedRoles;
          assert roles[i + 1] == roles[1..][i];
        }
      }
      found
  }

  /** `canManagePosts`: owner and administrators always may; anyone else may
      only if the guild has a config with a nonempty allowed-role list and the
      member holds one of those roles. */
  function CanManagePosts(m: Member, configs: map<GuildId, ServerConfig>): (allowed: bool)
    ensures IsServerOwner(m) ==> allowed
    ensures m.isAdmin ==> allowed
    ensures !IsServerOwner(m) && !m.isAdmin && m.guildId !in configs ==> !allowed
    ensures !IsServerOwner(m) && !m.isAdmin && m.guildId in configs ==>
              (allowed <==> exists i :: 0 <= i < |m.roles| && m.roles[i] in configs[m.guildId].allowedRoles)
  {
    if m.guildOwnerId == m.id then true
    else if m.isAdmin then true
    else if m.guildId !in configs then false
    else
      var config := configs[m.guildId];
      if config.allowedRoles == [] then false
      else HasAllowedRole(m.roles, config.allowedRoles)
  }

  /** An empty allowed-role list grants nobody beyond the owner and
      administrators. */
  lemma EmptyRoleListDenies(m: Member, configs: map<GuildId, ServerConfig>)
    requires !IsServerOwner(m) && !m.isAdmin
    requires m.guildId in configs && configs[m.guildId].allowedRoles == []
    ensures !CanManagePosts(m, configs)
  {
  }

  /** The config table is read only after the owner and administrator tests
      fail: for an owner or administrator the answer does not depend on it. */
  lemma ConfigIrrelevantForOwnerOrAdmin(m: Member, c1: map<GuildId, ServerConfig>, c2: map<GuildId, ServerConfig>)
    requires IsServerOwner(m) || m.isAdmin
    ensures CanManagePosts(m, c1) == CanManagePosts(m, c2)
  {
  }

  /** `checkPermissions`, kept for backward compatibility, is `canManagePosts`. */
  function CheckPermissions(m: Member, configs: map<GuildId, ServerConfig>): (allowed: bool)
    ensures allowed == CanManagePosts(m, configs)
  {
    CanManagePosts(m, configs)
  }
}

=== FILE: post_view.dfy ===
/** How a post is entered and shown: the entry form's fields, the tag list
    typed as comma-separated text, and the embed that displays a post in its
    channel. The create and edit commands each write these out; they are
    defined once here. */
module PostView {
  import opened Wrappers
  import opened Text

  // ----------------------------------------------------------------- form

  /** The field ids of the entry form. */
  const TitleField: string := "title"
  const ContentField: string := "content"
  const TagsField: string := "tags"

  /** An entry form: its correlation id, heading and pre-filled values. */
  datatype Form = Form(customId: string, heading: string, title: string, content: string, tags: string)

  /** `buildPostModal`: the three fields title, content and tags. */
  function FormFields(f: Form): (fields: map<string, string>)
    ensures fields.Keys == {TitleField, ContentField, TagsField}
  {
    map[TitleField := f.title, ContentField := f.content, TagsField := f.tags]
  }

  /** A submitted form holds all three fields (reading a missing one throws). */
  predicate HasFields(fields: map<string, string>) {
    TitleField in fields && ContentField in fields && TagsField in fields
  }

  // ----------------------------------------------------------------- tags

  /** A tag as the parser produces it: nonempty, no surrounding white space,
      no comma. */
  predicate WellFormedTag(t: string) {
    t != "" && IsTrimmed(t) && ',' !in t
  }

  /** `.map(t => t.trim()).filter(Boolean)` over the comma-split pieces. */
  function CleanTags(pieces: seq<string>): (tags: seq<string>)
    ensures |tags| <= |pieces|
  {
    if pieces == [] then []
    else
      var t := Trim(pieces[0]);
      (if t == "" then [] else [t]) + CleanTags(pieces[1..])
  }

  /** The tag list typed as text: empty text gives no tags; otherwise the
      comma-separated pieces, trimmed, without the empty ones, in input
      order. Duplicates are kept. */
  function ParseTags(text: string): seq<string> {
    if text == "" then [] else CleanTags(Split(text, ','))
  }

  /** The tags as the edit form pre-fills them and the footer shows them. */
  function JoinTags(tags: seq<string>): string {
    Join(tags, ", ")
  }

  /** A comma-free piece trims to a well-formed tag unless it is blank. */
  lemma TrimmedPieceWellFormed(piece: string)
    requires ',' !in piece && Trim(piece) != ""
    ensures WellFormedTag(Trim(piece))
  {
    TrimIsTrimmed(piece);
    TrimKeepsOnlyOwnChars(piece);
  }

  lemma {:induction false} CleanTagsWellFormed(pieces: seq<string>)
    requires forall i :: 0 <= i < |pieces| ==> ',' !in pieces[i]
    ensures forall t :: t in CleanTags(pieces) ==> WellFormedTag(t)
  {
    if pieces != [] {
      var t := Trim(pieces[0]);
      var rest := pieces[1..];
      forall i | 0 <= i < |rest| ensures ',' !in rest[i] {
        assert rest[i] == pieces[i + 1];
      }
      CleanTagsWellFormed(rest);
      if t != "" {
        TrimmedPieceWellFormed(pieces[0]);
        assert CleanTags(pieces) == [t] + CleanTags(rest);
      } else {
        assert CleanTags(pieces) == CleanTags(rest);
      }
    }
  }

  /** Every parsed tag is well formed. */
  lemma ParseTagsWellFormed(text: string)
    ensures forall t :: t in ParseTags(text) ==> WellFormedTag(t)
  {
    if text != "" {
      CleanTagsWellFormed(Split(text, ','));
    }
  }

  /** White space holds no comma. */
  lemma NoCommaInSpace(lead: string)
    requires AllSpace(lead)
    ensures ',' !in lead
  {
  }

  /** One well-formed tag after white space parses to itself. */
  lemma CleanTagsOfOne(lead: string, t: string)
    requires AllSpace(lead) && WellFormedTag(t)
    ensures CleanTags(Split(lead + t, ',')) == [t]
  {
    NoCommaInSpace(lead);
    assert ',' !in lead + t;
    SplitWithoutSeparator(lead + t, ',');
    TrimAfterSpace(lead, t);
    CleanTagsCons(lead + t, [], []);
    assert [lead + t] + [] == [lead + t];
  }

  /** The first tag of the joined text is split off at the first comma. */
  lemma SplitJoinedTags(lead: string, tags: seq<string>)
    requires AllSpace(lead) && |tags| > 1 && WellFormedTag(tags[0])
    ensures Split(lead + JoinTags(tags), ',') == [lead + tags[0]] + Split(" " + JoinTags(tags[1..]), ',')
  {
    NoCommaInSpace(lead);
    assert ',' !in lead + tags[0];
    var rest := JoinTags(tags[1..]);
    assert lead + JoinTags(tags) == (lead + tags[0]) + [','] + (" " + rest);
    SplitAtFirstSeparator(lead + tags[0], ',', " " + rest);
  }

  /** White space alone parses to no tags. */
  lemma CleanTagsOfSpace(lead: string)
    requires AllSpace(lead)
    ensures CleanTags(Split(lead, ',')) == []
  {
    NoCommaInSpace(lead);
    SplitWithoutSeparator(lead, ',');
    TrimOfSpace(lead);
  }

  /** A nonblank first piece contributes its trimmed self in front. */
  lemma CleanTagsCons(x: string, rest: seq<string>, tail: seq<string>)
    requires Trim(x) != "" && CleanTags(rest) == tail
    ensures CleanTags([x] + rest) == [Trim(x)] + tail
  {
    assert ([x] + rest)[1..] == rest;
  }

  /** The same, for a list already known to start with that piece. */
  lemma CleanTagsHead(pieces: seq<string>, x: string, rest: seq<string>, tags: seq<string>)
    requires tags != [] && pieces == [x] + rest && Trim(x) == tags[0] != ""
    requires CleanTags(rest) == tags[1..]
    ensures CleanTags(pieces) == tags
  {
    CleanTagsCons(x, rest, tags[1..]);
    assert [tags[0]] + tags[1..] == tags;
  }

  /** The empty list joins to "", which after white space parses to no tags. */
  lemma CleanTagsOfJoinNone(lead: string)
    requires AllSpace(lead)
    ensures CleanTags(Split(lead + JoinTags([]), ',')) == []
  {
    var joined := JoinTags([]);
    assert joined == "";
    assert lead + joined == lead;
    CleanTagsOfSpace(lead);
  }

  /** The inductive step: the first tag is parsed, the rest follows the
      separating ", ". */
  lemma CleanTagsOfJoinStep(lead: string, tags: seq<string>)
    requires AllSpace(lead) && |tags| > 1 && WellFormedTag(tags[0])
    requires CleanTags(Split(" " + JoinTags(tags[1..]), ',')) == tags[1..]
    ensures CleanTags(Split(lead + JoinTags(tags), ',')) == tags
  {
    SplitJoinedTags(lead, tags);
    TrimAfterSpace(lead, tags[0]);
    CleanTagsHead(Split(lead + JoinTags(tags), ','), lead + tags[0],
                  Split(" " + JoinTags(tags[1..]), ','), tags);
  }

  /** Parsing the joined list, after any white space, gives the list back. */
  lemma {:induction false} CleanTagsOfJoin(lead: string, tags: seq<string>)
    requires AllSpace(lead)
    requires forall t :: t in tags ==> WellFormedTag(t)
    ensures CleanTags(Split(lead + JoinTags(tags), ',')) == tags
    decreases |tags|
  {
    if tags == [] {
      CleanTagsOfJoinNone(lead);
    } else {
      assert tags[0] in tags;
      if |tags| == 1 {
        assert JoinTags(tags) == tags[0];
        CleanTagsOfOne(lead, tags[0]);
      } else {
        assert forall t :: t in tags[1..] ==> t in tags;
        assert AllSpace(" ");
        CleanTagsOfJoin(" ", tags[1..]);
        CleanTagsOfJoinStep(lead, tags);
      }
    }
  }

  /** Tags shown joined with `, ` parse back to the same list: the round trip
      of the edit form's pre-filled tags. */
  lemma TagsRoundTrip(tags: seq<string>)
    requires forall t :: t in tags ==> WellFormedTag(t)
    ensures ParseTags(JoinTags(tags)) == tags
  {
    if tags == [] {
    } else {
      assert JoinTags(tags) != "" by {
        assert tags[0] in tags;
        JoinStartsWithFirst(tags, ", ");
      }
      assert "" + JoinTags(tags) == JoinTags(tags);
      CleanTagsOfJoin("", tags);
    }
  }

  /** Parsing is stable: the joined result of a parse parses to itself. */
  lemma ParseTagsStable(text: string)
    ensures ParseTags(JoinTags(ParseTags(text))) == ParseTags(text)
  {
    ParseTagsWellFormed(text);
    TagsRoundTrip(ParseTags(text));
  }

  // --------------------------------------------------------------- embeds

  /** The embed description limit and the kept prefix when it is exceeded,
      in UTF-16 code units. */
  const DisplayLimit: nat := 4096
  const KeptPrefix: nat := 4090
  const Ellipsis: string := "..."

  /** Whether the content is too long to display whole: `content.length > 4096`. */
  predicate IsTruncated(content: string) {
    Utf16Length(content) > DisplayLimit
  }

  /** The displayed description: the content itself up to the limit, or its
      first 4090 code units and `...` (a surrogate pair that the cut would
      split is left out whole). */
  function DisplayDescription(content: string): (shown: string)
    ensures Utf16Length(shown) <= DisplayLimit
    ensures !IsTruncated(content) ==> shown == content
    ensures IsTruncated(content) ==>
              var k := |shown| - |Ellipsis|;
              && 0 <= k < |content|
              && shown == content[..k] + Ellipsis
              && Utf16Length(content[..k]) <= KeptPrefix < Utf16Length(content[..k + 1])
  {
    if Utf16Length(content) > DisplayLimit then
      var k := FitPrefix(content, KeptPrefix);
      FitPrefixCorrect(content, KeptPrefix);
      Utf16LengthAppend(content[..k], Ellipsis);
      assert Utf16Length(Ellipsis) == 3;
      assert content[..|content|] == content;
      content[..k] + Ellipsis
    else content
  }

  datatype EmbedField = EmbedField(name: string, value: string)

  /** The field added when the description was cut. */
  const TruncationNote: EmbedField :=
    EmbedField("Note", "Content was truncated. Full content is stored in the database.")

  /** A post's embed: title, description, author name, extra fields and footer. */
  datatype Embed = Embed(title: string, description: string, authorName: string,
                         fields: seq<EmbedField>, footer: string)

  /** The footer: `Post #<id>`, followed on create by ` | ` and the creation
      time as text, and preceded by `Tags: <tags> | ` when there are tags. */
  function Footer(id: nat, tags: seq<string>, createdAt: Option<string>): string {
    var base := PostNumber(id) + TimePart(createdAt);
    if |tags| > 0 then TagsPart(tags) + base else base
  }

  /** `Post #<id>`. */
  function PostNumber(id: nat): string {
    "Post #" + NatToString(id)
  }

  /** ` | <time>` when the creation time is shown, else nothing. */
  function TimePart(createdAt: Option<string>): string {
    if createdAt.Some? then " | " + createdAt.value else ""
  }

  /** `Tags: <tags> | `. */
  function TagsPart(tags: seq<string>): string {
    "Tags: " + JoinTags(tags) + " | "
  }

  /** The footer starts with the tag list exactly when there are tags, and
      otherwise with the post number. */
  lemma FooterShowsTagsFirst(id: nat, tags: seq<string>, createdAt: Option<string>)
    ensures |tags| > 0 ==> StartsWith(Footer(id, tags, createdAt), TagsPart(tags) + PostNumber(id))
    ensures tags == [] ==> StartsWith(Footer(id, tags, createdAt), PostNumber(id))
    ensures StartsWith(Footer(id, tags, createdAt), "Tags: ") <==> |tags| > 0
  {
    var base := PostNumber(id) + TimePart(createdAt);
    StartsWithConcat(PostNumber(id), TimePart(createdAt));
    if |tags| > 0 {
      var part := TagsPart(tags);
      StartsWithAppend(part, PostNumber(id), TimePart(createdAt));
      StartsWithConcat("Tags: ", JoinTags(tags));
      StartsWithConcat("Tags: " + JoinTags(tags), " | ");
      StartsWithTrans(part, "Tags: " + JoinTags(tags), "Tags: ");
      StartsWithConcat(part, base);
      StartsWithTrans(part + base, part, "Tags: ");
    } else {
      assert base[0] == 'P';
    }
  }

  /** The embed of a post with the given title, content and footer: the
      description cut for display and the note field exactly when it is. */
  function PostEmbed(title: string, content: string, authorName: string, footer: string): (e: Embed)
    ensures e.description == DisplayDescription(content)
    ensures e.fields == [] <==> !IsTruncated(content)
    ensures e.fields != [] ==> e.fields == [TruncationNote]
  {
    Embed(title, DisplayDescription(content), authorName,
          if IsTruncated(content) then [TruncationNote] else [], footer)
  }
}

=== FILE: store.dfy ===
/** The record store: three keyed tables and the queries the commands run
    against them. The store keeps rows in insertion order; a query without an
    ORDER BY returns them in that order. */
module Store {
  import opened Wrappers
  import opened Text
  import opened Models

  // ---------------------------------------------------------------- posts

  /** How a post id received as text (a command option or a token field)
      selects a row of the integer `id` column: a run of decimal digits whose
      value is the id. */
  predicate IdMatches(idText: string, id: nat) {
    IsDigits(idText) && DigitsValue(idText) == id
  }

  /** Posts are kept in creation order, so auto-incremented ids increase
      along the table, and every id is below the next one to be issued. */
  ghost predicate PostIdsValid(posts: seq<Post>, nextPostId: nat) {
    && (forall i, j :: 0 <= i < j < |posts| ==> posts[i].id < posts[j].id)
    && (forall i :: 0 <= i < |posts| ==> posts[i].id < nextPostId)
  }

  /** `Post.findOne({ where: { id: idText, guildId } })`. */
  function FindPost(posts: seq<Post>, idText: string, guildId: GuildId): (r: Option<Post>)
    ensures r.Some? ==> r.value in posts && r.value.guildId == guildId && IdMatches(idText, r.value.id)
    ensures r.None? ==> forall p :: p in posts ==> !(p.guildId == guildId && IdMatches(idText, p.id))
  {
    if posts == [] then None
    else if posts[0].guildId == guildId && IdMatches(idText, posts[0].id) then Some(posts[0])
    else FindPost(posts[1..], idText, guildId)
  }

  /** The position of the row with primary key `id`, if any. */
  function PostIndex(posts: seq<Post>, id: nat): (r: Option<nat>)
    ensures r.Some? ==> r.value < |posts| && posts[r.value].id == id
    ensures r.None? ==> forall i :: 0 <= i < |posts| ==> posts[i].id != id
  {
    if posts == [] then None
    else if posts[0].id == id then Some(0)
    else match PostIndex(posts[1..], id)
      case None => None
      case Some(i) => Some(i + 1)
  }

  /** The table without the row whose primary key is `id` (`post.destroy()`). */
  function WithoutPost(posts: seq<Post>, id: nat): (r: seq<Post>)
    ensures forall p :: p in r <==> p in posts && p.id != id
    ensures |r| <= |posts|
  {
    if posts == [] then []
    else (if posts[0].id == id then [] else [posts[0]]) + WithoutPost(posts[1..], id)
  }

  /** A post belongs to the listing scope: the guild, and the channel if one
      is given. */
  predicate InScope(p: Post, guildId: GuildId, channel: Option<ChannelId>) {
    p.guildId == guildId && (channel.None? || p.channelId == channel.value)
  }

  /** The rows in scope, in table order (the WHERE clause). */
  function Where(posts: seq<Post>, guildId: GuildId, channel: Option<ChannelId>): (r: seq<Post>)
    ensures forall p :: p in r <==> p in posts && InScope(p, guildId, channel)
    ensures |r| <= |posts|
  {
    if posts == [] then []
    else (if InScope(posts[0], guildId, channel) then [posts[0]] else []) + Where(posts[1..], guildId, channel)
  }

  /** Ordered by `createdAt` descending. */
  ghost predicate NewestFirst(s: seq<Post>) {
    forall i, j :: 0 <= i < j < |s| ==> s[i].createdAt >= s[j].createdAt
  }

  function Insert(p: Post, s: seq<Post>): seq<Post> {
    if s == [] then [p]
    else if p.createdAt >= s[0].createdAt then [p] + s
    else [s[0]] + Insert(p, s[1..])
  }

  /** `ORDER BY createdAt DESC`. The query leaves the order of equal
      timestamps open; this model keeps such rows in table order. */
  function SortNewestFirst(s: seq<Post>): seq<Post> {
    if s == [] then [] else Insert(s[0], SortNewestFirst(s[1..]))
  }

  /** In a newest-first sequence the head is at least as new as every later
      element. */
  lemma HeadIsNewest(s: seq<Post>, x: Post)
    requires NewestFirst(s) && s != [] && x in s[1..]
    ensures s[0].createdAt >= x.createdAt
  {
    var m :| 0 <= m < |s[1..]| && s[1..][m] == x;
    assert s[m + 1] == x;
  }

  lemma TailNewestFirst(s: seq<Post>)
    requires NewestFirst(s) && s != []
    ensures NewestFirst(s[1..])
  {
    var t := s[1..];
    forall i, j | 0 <= i < j < |t| ensures t[i].createdAt >= t[j].createdAt {
      assert t[i] == s[i + 1] && t[j] == s[j + 1];
    }
  }

  lemma ConsNewestFirst(h: Post, r: seq<Post>)
    requires NewestFirst(r)
    requires forall x :: x in r ==> h.createdAt >= x.createdAt
    ensures NewestFirst([h] + r)
  {
    var u := [h] + r;
    forall i, j | 0 <= i < j < |u| ensures u[i].createdAt >= u[j].createdAt {
      if i == 0 {
        assert u[j] == r[j - 1];
      } else {
        assert u[i] == r[i - 1] && u[j] == r[j - 1];
      }
    }
  }

  /** The head of a newest-first sequence is at least as new as each of its
      elements. */
  lemma HeadIsNewestOfAll(s: seq<Post>)
    requires NewestFirst(s) && s != []
    ensures forall x :: x in s ==> s[0].createdAt >= x.createdAt
  {
    forall x | x in s ensures s[0].createdAt >= x.createdAt {
      if x != s[0] {
        assert s == [s[0]] + s[1..];
        HeadIsNewest(s, x);
      }
    }
  }

  /** Inserting adds the one row and keeps the others. */
  lemma {:induction false} InsertAddsOne(p: Post, s: seq<Post>)
    ensures multiset(Insert(p, s)) == multiset(s) + multiset{p}
  {
    if s != [] && p.createdAt < s[0].createdAt {
      InsertAddsOne(p, s[1..]);
      assert s == [s[0]] + s[1..];
    }
  }

  lemma {:induction false} InsertKeepsOrder(p: Post, s: seq<Post>)
    requires NewestFirst(s)
    ensures NewestFirst(Insert(p, s))
  {
    if s == [] {
    } else if p.createdAt >= s[0].createdAt {
      HeadIsNewestOfAll(s);
      ConsNewestFirst(p, s);
    } else {
      var t := s[1..];
      TailNewestFirst(s);
      InsertKeepsOrder(p, t);
      var r := Insert(p, t);
      forall x | x in r ensures s[0].createdAt >= x.createdAt {
        InsertAddsOne(p, t);
        assert x in multiset(r);
        if x != p {
          HeadIsNewest(s, x);
        }
      }
      ConsNewestFirst(s[0], r);
    }
  }

  /** Sorting orders the rows newest first and neither loses nor adds any. */
  lemma {:induction false} SortNewestFirstCorrect(s: seq<Post>)
    ensures NewestFirst(SortNewestFirst(s))
    ensures multiset(SortNewestFirst(s)) == multiset(s)
  {
    if s != [] {
      SortNewestFirstCorrect(s[1..]);
      InsertKeepsOrder(s[0], SortNewestFirst(s[1..]));
      InsertAddsOne(s[0], SortNewestFirst(s[1..]));
      assert s == [s[0]] + s[1..];
    }
  }

  /** `LIMIT n`. */
  function Take<T>(s: seq<T>, n: nat): (r: seq<T>)
    ensures |r| == if |s| <= n then |s| else n
    ensures r == s[..|r|]
  {
    if |s| <= n then s else s[..n]
  }

  /** `Post.findAll({ where, order: [['createdAt', 'DESC']], limit })`. */
  function FindAllNewest(posts: seq<Post>, guildId: GuildId, channel: Option<ChannelId>, limit: nat): seq<Post> {
    Take(SortNewestFirst(Where(posts, guildId, channel)), limit)
  }

  /** The query returns posts in scope only, newest first, as many as the
      limit allows, and every post in scope that it leaves out is no newer
      than any post it returns. */
  lemma FindAllNewestCorrect(posts: seq<Post>, guildId: GuildId, channel: Option<ChannelId>, limit: nat)
    ensures var r := FindAllNewest(posts, guildId, channel, limit);
            var all := Where(posts, guildId, channel);
            && |r| == (if |all| <= limit then |all| else limit)
            && (forall i :: 0 <= i < |r| ==> r[i] in posts && InScope(r[i], guildId, channel))
            && NewestFirst(r)
            && multiset(r) <= multiset(all)
            && (forall q, i :: q in posts && InScope(q, guildId, channel) && q !in r && 0 <= i < |r| ==>
                  r[i].createdAt >= q.createdAt)
  {
    var all := Where(posts, guildId, channel);
    SortNewestFirstCorrect(all);
    LimitOfSorted(SortNewestFirst(all), all, limit);
  }

  /** The first `n` rows of a newest-first arrangement of `all`. */
  lemma LimitOfSorted(sorted: seq<Post>, all: seq<Post>, n: nat)
    requires NewestFirst(sorted) && multiset(sorted) == multiset(all)
    ensures var r := Take(sorted, n);
            && |r| == (if |all| <= n then |all| else n)
            && (forall i :: 0 <= i < |r| ==> r[i] in all)
            && NewestFirst(r)
            && multiset(r) <= multiset(all)
            && (forall q, i :: q in all && q !in r && 0 <= i < |r| ==> r[i].createdAt >= q.createdAt)
  {
    assert |sorted| == |all| by {
      assert |multiset(sorted)| == |multiset(all)|;
    }
    var r := Take(sorted, n);
    TakeKeepsOrder(sorted, n);
    TakeSplits(sorted, n);
    forall i | 0 <= i < |r| ensures r[i] in all {
      assert r[i] in multiset(all);
    }
    forall q, i | q in all && q !in r && 0 <= i < |r| ensures r[i].createdAt >= q.createdAt {
      assert q in multiset(sorted);
      assert q in multiset(sorted[|r|..]);
      NewerPrefix(sorted, |r|, i, q);
    }
  }

  /** A prefix of a newest-first sequence is newest first. */
  lemma TakeKeepsOrder(s: seq<Post>, n: nat)
    requires NewestFirst(s)
    ensures NewestFirst(Take(s, n))
  {
    var r := Take(s, n);
    forall i, j | 0 <= i < j < |r| ensures r[i].createdAt >= r[j].createdAt {
      assert r[i] == s[i] && r[j] == s[j];
    }
  }

  /** What `LIMIT` keeps and what it leaves make up the whole. */
  lemma TakeSplits<T>(s: seq<T>, n: nat)
    ensures multiset(s) == multiset(Take(s, n)) + multiset(s[|Take(s, n)|..])
  {
    assert s == Take(s, n) + s[|Take(s, n)|..];
  }

  lemma NewerPrefix(sorted: seq<Post>, k: nat, i: nat, q: Post)
    requires NewestFirst(sorted) && i < k <= |sorted| && q in sorted[k..]
    ensures sorted[i].createdAt >= q.createdAt
  {
    var m :| 0 <= m < |sorted[k..]| && sorted[k..][m] == q;
    assert sorted[k + m] == q;
  }

  // --------------------------------------------------------------- grants

  /** At most one grant record per (guild, channel, user): the primary key. */
  ghost predicate UniqueKeys(grants: seq<ChannelPermission>) {
    forall i, j :: 0 <= i < j < |grants| ==> grants[i].Key() != grants[j].Key()
  }

  /** `ChannelPermission.findOne({ where: key })`, as a row position: the first
      row with the key. */
  function FindGrantIndex(grants: seq<ChannelPermission>, key: GrantKey): (r: Option<nat>)
    ensures r.Some? ==> r.value < |grants| && grants[r.value].Key() == key
    ensures r.Some? ==> forall i :: 0 <= i < r.value ==> grants[i].Key() != key
    ensures r.None? ==> forall i :: 0 <= i < |grants| ==> grants[i].Key() != key
  {
    if grants == [] then None
    else if grants[0].Key() == key then Some(0)
    else match FindGrantIndex(grants[1..], key)
      case None => None
      case Some(i) => Some(i + 1)
  }

  /** `ChannelPermission.findOne({ where: key })`. */
  function FindGrant(grants: seq<ChannelPermission>, key: GrantKey): (r: Option<ChannelPermission>)
    ensures r.Some? ==> r.value in grants && r.value.Key() == key
    ensures r.None? ==> forall p :: p in grants ==> p.Key() != key
  {
    match FindGrantIndex(grants, key)
    case None => None
    case Some(i) => Some(grants[i])
  }

  // -------------------------------------------------------------- configs

  /** The config table is keyed by `guildId`. */
  ghost predicate ConfigsKeyed(configs: map<GuildId, ServerConfig>) {
    forall g :: g in configs ==> configs[g].guildId == g
  }

  // ---------------------------------------------------------------- store

  /** The three tables and the auto-increment counter of `posts.id`. */
  class Db {
    var configs: map<GuildId, ServerConfig>
    var grants: seq<ChannelPermission>
    var posts: seq<Post>
    var nextPostId: nat

    ghost predicate Valid()
      reads this
    {
      ConfigsKeyed(configs) && UniqueKeys(grants) && PostIdsValid(posts, nextPostId)
    }

    constructor ()
      ensures Valid()
      ensures configs == map[] && grants == [] && posts == [] && nextPostId == 1
    {
      configs, grants, posts, nextPostId := map[], [], [], 1;
    }

    /** `ServerConfig.findOrCreate({ where: { guildId }, defaults: { allowedRoles: [] } })`. */
    method FindOrCreateConfig(guildId: GuildId, now: nat) returns (cfg: ServerConfig)
      requires Valid()
      modifies this
      ensures Valid()
      ensures cfg == if guildId in old(configs) then old(configs)[guildId] else DefaultServerConfig(guildId, now)
      ensures configs == old(configs)[guildId := cfg]
      ensures grants == old(grants) && posts == old(posts) && nextPostId == old(nextPostId)
    {
      if guildId in configs {
        cfg := configs[guildId];
      } else {
        cfg := DefaultServerConfig(guildId, now);
        configs := configs[guildId := cfg];
      }
    }

    /** `config.save()` / `config.update(...)`: writes the row back and
        refreshes `updatedAt`. */
    method SaveConfig(cfg: ServerConfig, now: nat)
      requires Valid() && cfg.guildId in configs
      modifies this
      ensures Valid()
      ensures configs == old(configs)[cfg.guildId := cfg.(updatedAt := now)]
      ensures grants == old(grants) && posts == old(posts) && nextPostId == old(nextPostId)
    {
      configs := configs[cfg.guildId := cfg.(updatedAt := now)];
    }

    /** `ChannelPermission.create(...)` with every flag false, for a key that
        has no row yet. */
    method CreateGrant(key: GrantKey) returns (p: ChannelPermission)
      requires Valid() && FindGrantIndex(grants, key).None?
      modifies this
      ensures Valid()
      ensures p == DefaultPermission(key)
      ensures grants == old(grants) + [p]
      ensures configs == old(configs) && posts == old(posts) && nextPostId == old(nextPostId)
    {
      p := DefaultPermission(key);
      grants := grants + [p];
    }

    /** `perm.save()`: writes a grant row back over the row with its key. */
    method SaveGrant(p: ChannelPermission)
      requires Valid() && FindGrantIndex(grants, p.Key()).Some?
      modifies this
      ensures Valid()
      ensures grants == old(grants)[FindGrantIndex(old(grants), p.Key()).value := p]
      ensures configs == old(configs) && posts == old(posts) && nextPostId == old(nextPostId)
    {
      var i := FindGrantIndex(grants, p.Key()).value;
      grants := grants[i := p];
    }

    /** `Post.create(...)`: a new row with the next auto-increment id, no
        attachments, no editor yet, and both timestamps at `now`. */
    method CreatePost(guildId: GuildId, channelId: ChannelId, messageId: MessageId,
                      title: string, content: string, authorId: UserId, authorName: string,
                      tags: seq<string>, now: nat) returns (post: Post)
      requires Valid()
      modifies this
      ensures Valid()
      ensures post == Post(old(nextPostId), guildId, channelId, messageId, title, content,
                           authorId, authorName, None, [], tags, now, now)
      ensures forall q :: q in old(posts) ==> q.id != post.id
      ensures posts == old(posts) + [post]
      ensures nextPostId == old(nextPostId) + 1
      ensures configs == old(configs) && grants == old(grants)
    {
      post := Post(nextPostId, guildId, channelId, messageId, title, content,
                   authorId, authorName, None, [], tags, now, now);
      posts := posts + [post];
      nextPostId := nextPostId + 1;
    }

    /** `post.save()`: writes a post row back over the row with its id and
        refreshes `updatedAt`. */
    method SavePost(p: Post, now: nat)
      requires Valid() && PostIndex(posts, p.id).Some?
      modifies this
      ensures Valid()
      ensures posts == old(posts)[PostIndex(old(posts), p.id).value := p.(updatedAt := now)]
      ensures configs == old(configs) && grants == old(grants) && nextPostId == old(nextPostId)
    {
      var i := PostIndex(posts, p.id).value;
      posts := posts[i := p.(updatedAt := now)];
    }

    /** `post.destroy()`: removes the row; there is no soft delete. */
    method DestroyPost(id: nat)
      requires Valid()
      modifies this
      ensures Valid()
      ensures posts == WithoutPost(old(posts), id)
      ensures configs == old(configs) && grants == old(grants) && nextPostId == old(nextPostId)
    {
      WithoutPostKeepsIds(posts, id, nextPostId);
      posts := WithoutPost(posts, id);
    }
  }

  /** In a valid table the first row has the smallest id. */
  lemma HeadIdIsSmallest(posts: seq<Post>, nextPostId: nat, x: Post)
    requires PostIdsValid(posts, nextPostId) && posts != [] && x in posts[1..]
    ensures posts[0].id < x.id
  {
    var m :| 0 <= m < |posts[1..]| && posts[1..][m] == x;
    assert posts[m + 1] == x;
  }

  lemma TailIdsValid(posts: seq<Post>, nextPostId: nat)
    requires PostIdsValid(posts, nextPostId) && posts != []
    ensures PostIdsValid(posts[1..], nextPostId)
  {
    var t := posts[1..];
    forall i, j | 0 <= i < j < |t| ensures t[i].id < t[j].id {
      assert t[i] == posts[i + 1] && t[j] == posts[j + 1];
    }
  }

  lemma ConsIdsValid(h: Post, r: seq<Post>, nextPostId: nat)
    requires PostIdsValid(r, nextPostId) && h.id < nextPostId
    requires forall x :: x in r ==> h.id < x.id
    ensures PostIdsValid([h] + r, nextPostId)
  {
    var u := [h] + r;
    forall i, j | 0 <= i < j < |u| ensures u[i].id < u[j].id {
      if i == 0 {
        assert u[j] in r;
      } else {
        assert u[i] == r[i - 1] && u[j] == r[j - 1];
      }
    }
    forall i | 0 <= i < |u| ensures u[i].id < nextPostId {
      if i > 0 {
        assert u[i] == r[i - 1];
      }
    }
  }

  /** Removing a row keeps the ids increasing and below the counter. */
  lemma {:induction false} WithoutPostKeepsIds(posts: seq<Post>, id: nat, nextPostId: nat)
    requires PostIdsValid(posts, nextPostId)
    ensures PostIdsValid(WithoutPost(posts, id), nextPostId)
  {
    if posts != [] {
      var t := posts[1..];
      TailIdsValid(posts, nextPostId);
      WithoutPostKeepsIds(t, id, nextPostId);
      var r := WithoutPost(t, id);
      if posts[0].id != id {
        forall x | x in r ensures posts[0].id < x.id {
          HeadIdIsSmallest(posts, nextPostId, x);
        }
        ConsIdsValid(posts[0], r, nextPostId);
        assert WithoutPost(posts, id) == [posts[0]] + r;
      } else {
        assert WithoutPost(posts, id) == r;
      }
    }
  }

  /** Post ids are unique in a valid table. */
  lemma SameIdSamePost(posts: seq<Post>, nextPostId: nat, p: Post, q: Post)
    requires PostIdsValid(posts, nextPostId) && p in posts && q in posts && p.id == q.id
    ensures p == q
  {
    var i :| 0 <= i < |posts| && posts[i] == p;
    var j :| 0 <= j < |posts| && posts[j] == q;
    assert i == j;
  }

  /** The id shown for a post of the guild, given back to a command that
      takes an id, selects exactly that post. */
  lemma ShownIdSelectsPost(posts: seq<Post>, nextPostId: nat, p: Post)
    requires PostIdsValid(posts, nextPostId) && p in posts
    ensures FindPost(posts, NatToString(p.id), p.guildId) == Some(p)
  {
    DigitsValueOfNatToString(p.id);
    var r := FindPost(posts, NatToString(p.id), p.guildId);
    assert IdMatches(NatToString(p.id), p.id);
    assert r.Some?;
    SameIdSamePost(posts, nextPostId, r.value, p);
  }
}

=== FILE: text.dfy ===
/** The string operations the bot's code relies on, with JavaScript's meaning.
    A string is a sequence of Unicode characters; where the code compares a
    length, the length is counted as `String.prototype.length` counts it, in
    UTF-16 code units (`Utf16Length`). */
module Text {
  import opened Wrappers

  /** The characters `String.prototype.trim` removes: ECMAScript's WhiteSpace
      and LineTerminator code points. */
  predicate IsSpace(c: char) {
    c == ' ' || c == '\t' || c == '\n' || c == '\r' || c == '\U{000B}' || c == '\U{000C}'
    || c == '\U{00A0}' || c == '\U{1680}' || ('\U{2000}' <= c <= '\U{200A}')
    || c == '\U{2028}' || c == '\U{2029}' || c == '\U{202F}' || c == '\U{205F}'
    || c == '\U{3000}' || c == '\U{FEFF}'
  }

  predicate AllSpace(s: string) {
    forall i :: 0 <= i < |s| ==> IsSpace(s[i])
  }

  lemma AllSpaceConcat(a: string, b: string)
    requires AllSpace(a) && AllSpace(b)
    ensures AllSpace(a + b)
  {
    forall i | 0 <= i < |a + b| ensures IsSpace((a + b)[i]) {
      if i < |a| {
        assert (a + b)[i] == a[i];
      } else {
        assert (a + b)[i] == b[i - |a|];
      }
    }
  }

  /** `s.trimStart()`: the suffix of `s` that starts at its first non-space. */
  function TrimStart(s: string): (r: string)
    ensures |r| <= |s| && r == s[|s| - |r|..]
    ensures AllSpace(s[..|s| - |r|])
    ensures r == [] || !IsSpace(r[0])
  {
    if s != [] && IsSpace(s[0]) then
      var r := TrimStart(s[1..]);
      assert s[..|s| - |r|] == [s[0]] + s[1..][..|s| - 1 - |r|];
      AllSpaceConcat([s[0]], s[1..][..|s| - 1 - |r|]);
      r
    else s
  }

  /** `s.trimEnd()`: the prefix of `s` that ends at its last non-space. */
  function TrimEnd(s: string): (r: string)
    ensures |r| <= |s| && r == s[..|r|]
    ensures AllSpace(s[|r|..])
    ensures r == [] || !IsSpace(r[|r| - 1])
  {
    if s != [] && IsSpace(s[|s| - 1]) then
      var r := TrimEnd(s[..|s| - 1]);
      assert s[|r|..] == s[..|s| - 1][|r|..] + [s[|s| - 1]];
      AllSpaceConcat(s[..|s| - 1][|r|..], [s[|s| - 1]]);
      r
    else s
  }

  /** `s.trim()`. */
  function Trim(s: string): string {
    TrimEnd(TrimStart(s))
  }

  /** A string that `trim` leaves as it is. */
  predicate IsTrimmed(s: string) {
    s == [] || (!IsSpace(s[0]) && !IsSpace(s[|s| - 1]))
  }

  /** Trimming yields a trimmed string, so trimming twice is trimming once. */
  lemma TrimIsTrimmed(s: string)
    ensures IsTrimmed(Trim(s))
    ensures Trim(Trim(s)) == Trim(s)
  {
    var a := TrimStart(s);
    var b := TrimEnd(a);
    if b != [] {
      assert b[0] == a[0];
    }
    TrimOfTrimmed(b);
  }

  lemma TrimOfTrimmed(t: string)
    requires IsTrimmed(t)
    ensures Trim(t) == t
  {
  }

  /** Leading white space is dropped by `trim`. */
  lemma {:induction false} TrimAfterSpace(lead: string, t: string)
    requires AllSpace(lead)
    requires t != [] && IsTrimmed(t)
    ensures Trim(lead + t) == t
  {
    if lead == [] {
      assert lead + t == t;
      TrimOfTrimmed(t);
    } else {
      assert (lead + t)[1..] == lead[1..] + t;
      TrimAfterSpace(lead[1..], t);
    }
  }

  /** `trim` only removes characters: what is left occurs in the input. */
  lemma TrimKeepsOnlyOwnChars(s: string)
    ensures forall c :: c in Trim(s) ==> c in s
  {
    var a := TrimStart(s);
    var b := TrimEnd(a);
    SliceCharsOccur(s, |s| - |a|, |s|);
    SliceCharsOccur(a, 0, |b|);
  }

  lemma SliceCharsOccur(s: string, i: nat, j: nat)
    requires i <= j <= |s|
    ensures forall c :: c in s[i..j] ==> c in s
  {
    forall c | c in s[i..j] ensures c in s {
      var k :| 0 <= k < j - i && s[i..j][k] == c;
      assert s[i + k] == c;
    }
  }

  /** A string of white space trims to the empty string. */
  lemma TrimOfSpace(s: string)
    requires AllSpace(s)
    ensures Trim(s) == ""
  {
  }

  /** `s.startsWith(prefix)`. */
  predicate StartsWith(s: string, prefix: string) {
    |prefix| <= |s| && s[..|prefix|] == prefix
  }

  lemma StartsWithConcat(prefix: string, rest: string)
    ensures StartsWith(prefix + rest, prefix)
    ensures (prefix + rest)[|prefix|..] == rest
  {
    assert (prefix + rest)[..|prefix|] == prefix;
  }

  lemma StartsWithAppend(a: string, b: string, c: string)
    ensures StartsWith(a + (b + c), a + b)
  {
    assert a + (b + c) == (a + b) + c;
    StartsWithConcat(a + b, c);
  }

  /** A prefix of a prefix is a prefix. */
  lemma StartsWithTrans(s: string, p: string, q: string)
    requires StartsWith(s, p) && StartsWith(p, q)
    ensures StartsWith(s, q)
  {
    assert s[..|q|] == s[..|p|][..|q|];
  }

  /** `s.includes(t)`: `t` occurs in `s` at some position. */
  predicate Contains(s: string, t: string)
    decreases |s|
  {
    StartsWith(s, t) || (s != [] && Contains(s[1..], t))
  }

  /** The empty string is included in every string. */
  lemma ContainsEmpty(s: string)
    ensures Contains(s, "")
  {
    assert StartsWith(s, "");
  }

  /** Every string includes itself. */
  lemma ContainsSelf(s: string)
    ensures Contains(s, s)
  {
    assert s[..|s|] == s;
  }

  /** `s.split(sep)` for a one-character separator: always at least one
      piece, no piece holds the separator, and the pieces joined back with the
      separator give `s` again. */
  function Split(s: string, sep: char): (parts: seq<string>)
    ensures |parts| >= 1
    ensures forall i :: 0 <= i < |parts| ==> sep !in parts[i]
    ensures Join(parts, [sep]) == s
  {
    if s == [] then [""]
    else
      var rest := Split(s[1..], sep);
      if s[0] == sep then
        assert [""] + rest == [""] + rest[0..];
        [""] + rest
      else
        var parts := [[s[0]] + rest[0]] + rest[1..];
        assert parts[1..] == rest[1..];
        if |rest| == 1 then parts
        else
          assert Join(rest, [sep]) == rest[0] + [sep] + Join(rest[1..], [sep]);
          parts
  }

  /** `parts.join(sep)`. */
  function Join(parts: seq<string>, sep: string): string
    decreases |parts|
  {
    if |parts| == 0 then ""
    else if |parts| == 1 then parts[0]
    else parts[0] + sep + Join(parts[1..], sep)
  }

  lemma JoinPair(a: string, b: string, sep: string)
    ensures Join([a, b], sep) == a + sep + b
  {
    assert [a, b][1..] == [b];
  }

  lemma JoinTriple(a: string, b: string, c: string, sep: string)
    ensures Join([a, b, c], sep) == a + sep + (b + sep + c)
  {
    assert [a, b, c][1..] == [b, c];
    JoinPair(b, c, sep);
  }

  /** A nonempty list joins to a string that begins with its first piece. */
  lemma JoinStartsWithFirst(parts: seq<string>, sep: string)
    requires parts != []
    ensures StartsWith(Join(parts, sep), parts[0])
  {
    if |parts| > 1 {
      assert Join(parts, sep) == parts[0] + (sep + Join(parts[1..], sep));
      StartsWithConcat(parts[0], sep + Join(parts[1..], sep));
    }
  }

  /** Appending a piece to a nonempty list extends the joined string by the
      separator and the piece. */
  lemma {:induction false} JoinAppend(parts: seq<string>, x: string, sep: string)
    requires parts != []
    ensures Join(parts + [x], sep) == Join(parts, sep) + sep + x
  {
    if |parts| > 1 {
      assert (parts + [x])[1..] == parts[1..] + [x];
      JoinAppend(parts[1..], x, sep);
    }
  }

  /** A string without the separator splits into itself alone. */
  lemma {:induction false} SplitWithoutSeparator(s: string, sep: char)
    requires sep !in s
    ensures Split(s, sep) == [s]
  {
    if s != [] {
      assert sep !in s[1..];
      SplitWithoutSeparator(s[1..], sep);
    }
  }

  /** Splitting `a + sep + b` where `a` has no separator gives `a` first, then
      the pieces of `b`. */
  lemma {:induction false} SplitAtFirstSeparator(a: string, sep: char, b: string)
    requires sep !in a
    ensures Split(a + [sep] + b, sep) == [a] + Split(b, sep)
  {
    var s := a + [sep] + b;
    if a == [] {
      assert s[0] == sep && s[1..] == b;
    } else {
      assert s[0] == a[0] && s[0] != sep;
      assert s[1..] == a[1..] + [sep] + b;
      assert sep !in a[1..];
      SplitAtFirstSeparator(a[1..], sep, b);
      assert [a[0]] + a[1..] == a;
    }
  }

  /** `s.toLowerCase()` on the ASCII letters. */
  function ToLower(s: string): (r: string)
    ensures |r| == |s|
  {
    seq(|s|, i requires 0 <= i < |s| => if 'A' <= s[i] <= 'Z' then (s[i] as int + 32) as char else s[i])
  }

  predicate IsDigit(c: char) {
    '0' <= c <= '9'
  }

  /** A nonempty run of decimal digits: what the regular-expression class
      `\d+` matches. */
  predicate IsDigits(s: string) {
    s != [] && forall i :: 0 <= i < |s| ==> IsDigit(s[i])
  }

  function DigitChar(d: nat): (c: char)
    requires d < 10
    ensures IsDigit(c)
  {
    ('0' as int + d) as char
  }

  /** The decimal rendering of `n`, as template literals and `toString` write
      it (no sign, no leading zero). */
  function NatToString(n: nat): (s: string)
    ensures IsDigits(s)
    decreases n
  {
    if n < 10 then [DigitChar(n)] else NatToString(n / 10) + [DigitChar(n % 10)]
  }

  /** The value of a run of decimal digits (leading zeros allowed). */
  function DigitsValue(s: string): nat
    requires forall i :: 0 <= i < |s| ==> IsDigit(s[i])
  {
    if s == [] then 0
    else
      assert IsDigit(s[|s| - 1]);
      DigitsValue(s[..|s| - 1]) * 10 + (s[|s| - 1] as int - '0' as int) as nat
  }

  /** Reading back a rendered number gives the number. */
  lemma {:induction false} DigitsValueOfNatToString(n: nat)
    ensures DigitsValue(NatToString(n)) == n
    decreases n
  {
    if n >= 10 {
      var s := NatToString(n);
      assert s[..|s| - 1] == NatToString(n / 10);
      DigitsValueOfNatToString(n / 10);
    }
  }

  /** Distinct numbers render to distinct strings. */
  lemma NatToStringInjective(m: nat, n: nat)
    requires NatToString(m) == NatToString(n)
    ensures m == n
  {
    DigitsValueOfNatToString(m);
    DigitsValueOfNatToString(n);
  }

  // --------------------------------------------------------------- UTF-16

  /** The UTF-16 code units of one character: two (a surrogate pair) for a
      character outside the Basic Multilingual Plane, else one. */
  function CodeUnits(c: char): (n: nat)
    ensures n == 1 || n == 2
    ensures n == 2 <==> c as int >= 0x1_0000
  {
    if c as int >= 0x1_0000 then 2 else 1
  }

  /** `s.length`: the number of UTF-16 code units of `s`. */
  function Utf16Length(s: string): (n: nat)
    ensures |s| <= n <= 2 * |s|
  {
    if s == [] then 0 else CodeUnits(s[0]) + Utf16Length(s[1..])
  }

  /** The code units of a concatenation add up. */
  lemma {:induction false} Utf16LengthAppend(a: string, b: string)
    ensures Utf16Length(a + b) == Utf16Length(a) + Utf16Length(b)
  {
    if a != [] {
      assert (a + b)[0] == a[0];
      assert (a + b)[1..] == a[1..] + b;
      Utf16LengthAppend(a[1..], b);
    } else {
      assert a + b == b;
    }
  }

  /** One more character adds its code units. */
  lemma Utf16LengthSnoc(s: string, k: nat)
    requires k < |s|
    ensures Utf16Length(s[..k + 1]) == Utf16Length(s[..k]) + CodeUnits(s[k])
  {
    assert s[..k + 1] == s[..k] + [s[k]];
    Utf16LengthAppend(s[..k], [s[k]]);
  }

  /** A nonempty prefix counts the first character and a prefix of the rest. */
  lemma ConsPrefixLength(s: string)
    requires s != []
    ensures forall j :: 1 <= j <= |s| ==> Utf16Length(s[..j]) == CodeUnits(s[0]) + Utf16Length(s[1..][..j - 1])
  {
    forall j | 1 <= j <= |s| ensures Utf16Length(s[..j]) == CodeUnits(s[0]) + Utf16Length(s[1..][..j - 1]) {
      assert s[..j] == [s[0]] + s[1..][..j - 1];
      Utf16LengthAppend([s[0]], s[1..][..j - 1]);
    }
  }

  /** The number of leading characters of `s` that fit in `n` code units: the
      longest prefix whose UTF-16 length is at most `n`. This is where
      `s.substring(0, n)` ends, except that a surrogate pair straddling the
      cut is left out whole. */
  function FitPrefix(s: string, n: nat): (k: nat)
    ensures k <= |s|
  {
    if s == [] || CodeUnits(s[0]) > n then 0
    else FitPrefix(s[1..], n - CodeUnits(s[0])) + 1
  }

  /** The prefix kept fits in `n` code units, and one more character would
      not. */
  lemma {:induction false} FitPrefixCorrect(s: string, n: nat)
    ensures var k := FitPrefix(s, n);
            Utf16Length(s[..k]) <= n && (k < |s| ==> Utf16Length(s[..k + 1]) > n)
  {
    var k := FitPrefix(s, n);
    if s == [] {
    } else if CodeUnits(s[0]) > n {
      assert s[..0] == [];
      ConsPrefixLength(s);
      assert s[1..][..0] == [];
    } else {
      var m := n - CodeUnits(s[0]);
      FitPrefixCorrect(s[1..], m);
      ConsPrefixLength(s);
      assert Utf16Length(s[..k]) == CodeUnits(s[0]) + Utf16Length(s[1..][..k - 1]);
      if k < |s| {
        assert Utf16Length(s[..k + 1]) == CodeUnits(s[0]) + Utf16Length(s[1..][..k]);
      }
    }
  }
}

=== FILE: transport.dfy ===
/** What the chat platform answers to the bot's requests. The platform is not
    modelled; each handler receives these answers as inputs. */
module Transport {
  import opened Models

  /** The answer to fetching a channel by id (or finding it in the cache):
      no such channel, an error thrown by the platform, or the channel with
      whether it is text-based and whether it is a thread. */
  datatype ChannelFetch =
    | Missing
    | FetchFailed
    | Found(id: ChannelId, textBased: bool, isThread: bool)
}

=== FILE: wrappers.dfy ===
/** The optional value used wherever the bot reads something that may be absent
    (a store lookup, an optional command option, a transport answer). */
module Wrappers {

  datatype Option<+T> = None | Some(value: T) {

    /** The value, or `default` when absent. */
    function GetOr(default: T): T {
      match this
      case Some(v) => v
      case None => default
    }
  }
}
